=== FILE: README.md ===
# skedify scheduling core in Dafny

This project models the availability and conflict engine of skedify, a
booking platform. A provider defines session types, each with a name, a
duration of 1 to 480 minutes and a public link. The provider also owns
calendars of events. Invitees book a start time through a session type's link.
The provider then approves or rejects each booking. Approving a booking writes
an event onto the provider's earliest-created calendar.

The model covers:

- **The interval tests.** These are the three-clause test written out in
  `checkBookingConflict`, in `checkTimeConflict` and twice in the slot loop of
  `getAvailableSlots`. Module `Overlap` shows that, on non-empty intervals, the
  test is exactly half-open overlap, so intervals that only touch do not
  conflict. It also shows that the emptiness condition is needed.
- **Slot generation and filtering** (`Slots`, `BookingModel`). The working day
  has 32 candidates, 09:00 through 16:45, whatever the session's length. The
  last slot may run past 17:00. Each existing booking is measured with the
  duration of the type being requested, not with its own type's duration.
- **The booking lifecycle** (`BookingModel`, `BookingRoutes`): create, approve
  and reject, each as its route handler runs it. The handler checks its guards
  in order, returns at the first that fails, and writes only after all pass.
- **The validation chains** of the session-type routes (`SessionRoutes`) and
  of the calendar create, rename and add-event routes (`CalendarRoutes`).
  There is no state change on any error path.
- **A store invariant** (`StoreInvariant.Valid`) that every modelled handler
  preserves:
  - session durations are in range;
  - events are non-empty;
  - calendar ids are fresh;
  - no two events of one provider overlap.

The store is a record of tables, each a sequence of rows in insertion order.
A lookup returns the first matching row, as `rows[0] || null` does. An
`UPDATE ... WHERE` rewrites every matching row. A handler is a pure function
from a store and a request to a `Reply`, which pairs the HTTP outcome with the
new store. A guard chain is a sequence of `Check`s. `Http.FollowsChain` states
that the handler answers with the fault of the first failing guard, and
succeeds exactly when every guard passes.

Time is an integer count of milliseconds in one implicit timezone at offset
zero. Durations are whole minutes.

Three behaviours of the code deserve a note, because the code itself
suggests they are not what its authors meant:

- **Review never reads the booking's status.** The review buttons are
  offered only on pending bookings (frontend/src/components/BookingManagement.tsx:134),
  so review is evidently meant for pending bookings only. The approve and
  reject handlers (backend/routes/bookings.ts:155-250) nonetheless accept a
  booking in any status. `BookingRoutes.ReviewIgnoresStatus` proves that their
  answers do not depend on it.
- **Reviving a rejected booking double-books.** Creating a booking keeps every
  provider's pending and approved bookings pairwise disjoint
  (`BookingRoutes.CreateKeepsBookingsDisjoint`), since the conflict query at
  backend/models/Booking.ts:71-93 refuses any overlap. Approving a rejected
  booking after its slot was rebooked breaks this, because approve consults
  only calendar events: `Scenarios.RejectedBookingRevived` exhibits such a run.
- **The slot filter and the write-time check measure bookings differently.**
  The slot loop measures every existing booking with the requested type's
  duration (backend/models/Booking.ts:142); the conflict query measures each
  with its own type's duration (backend/models/Booking.ts:82-84). So a slot can
  be offered whose booking request is then refused with 409
  (`Scenarios.OfferedSlotRefused`).

## Model

| member | source | states |
|---|---|---|
| Overlap.ThreeClause | backend/models/Booking.ts:82-84 | On two non-empty intervals the three-clause conflict test holds exactly when they overlap half-open |
| Overlap.OverlapsSymmetric | backend/models/Booking.ts:143-146 | Half-open overlap does not depend on which interval is the candidate |
| Overlap.ThreeClauseSymmetric | backend/models/Booking.ts:155-158 | On non-empty intervals the conflict test is symmetric, so the slot loop and the write-time query agree on which side is stored |
| Overlap.TouchingNeverConflicts | backend/models/Calendar.ts:135-139 | A stored interval that ends where the candidate starts, or starts where it ends, is no conflict |
| Overlap.EmptyIntervalIsHitButNoOverlap | backend/models/Booking.ts:156-158 | An empty stored interval at the candidate's start counts as a hit even though it overlaps nothing, so the half-open reading needs non-empty intervals |
| Slots.Candidates | backend/models/Booking.ts:135 | The k-th candidate is the window start plus 15k minutes, the candidates fill the window without passing its end, and an empty window has none |
| Slots.FreeSlots | backend/models/Booking.ts:139-168 | A start is kept iff it is a candidate hit by no fetched booking and no fetched event; the result is no longer than the candidates and keeps them ascending |
| Slots.SlotsFromIsFreeCandidates | backend/models/Booking.ts:135-169 | Running generation and filtering fused, as the loop does, gives the free candidates |
| Slots.BookingsAllow | backend/models/Booking.ts:139-151 | The booking loop reports a slot available iff no fetched booking start, measured with the requested duration, is hit |
| Slots.EventsAllow | backend/models/Booking.ts:153-164 | The event loop reports a slot available iff no fetched event is hit |
| Slots.AvailableSlots | backend/models/Booking.ts:132-171 | The nested loops return exactly the free candidates of the window, in order |
| Slots.WorkingDayCandidates | backend/models/Booking.ts:109-135 | The working day has exactly 32 candidates, 09:00 through 16:45 and 15 minutes apart, whatever the duration |
| Slots.FreeWorkingSlots | backend/models/Booking.ts:132-171 | A day offers at most 32 slots, ascending, each 09:00 plus a multiple of 15 minutes |
| Slots.LastSlotMayOverrun | backend/models/Booking.ts:135-137 | The 16:45 candidate exists for every duration, so a session longer than 15 minutes can end after 17:00 |
| Slots.SlotFreeIffNoOverlap | backend/models/Booking.ts:139-164 | For a positive duration and non-empty events a slot is free iff its span overlaps, half-open, no booking span and no event |
| Slots.FreeSlotMembership | backend/models/Booking.ts:139-168 | A candidate is offered iff it is clear of every booking span and every event span |
| Slots.BusierDayFewerSlots | backend/models/Booking.ts:139-168 | More bookings or more events can only remove free slots |
| BookingModel.FindSessionType | backend/models/Booking.ts:98-105 | The type lookup for a slot query finds a row with that id, or none exists |
| BookingModel.FindBooking | backend/models/Booking.ts:22-34 | `findById` returns a booking row with the id, the first one, or reports that no row has it |
| BookingModel.BookingHitIsOverlap | backend/models/Booking.ts:77-84 | For a positive duration a booking hits the candidate iff it is the provider's, live, and overlaps half-open |
| BookingModel.CheckBookingConflict | backend/models/Booking.ts:71-93 | An unknown session type never conflicts; for a known type, with positive durations throughout, the candidate conflicts iff some live booking of the same provider overlaps it half-open, measured with its own type's duration |
| BookingModel.RejectedBookingNeverConflicts | backend/models/Booking.ts:80 | Adding a rejected booking changes no conflict answer |
| BookingModel.GetAvailableSlots | backend/models/Booking.ts:95-175 | An unknown type gives no slots; otherwise at most 32 ascending slots, each on the 15-minute grid from 09:00 of the requested day |
| BookingModel.LiveStartsOn | backend/models/Booking.ts:115-122 | The fetched starts are exactly those of the provider's pending or approved bookings on the requested day |
| BookingModel.EventsOn | backend/models/Booking.ts:124-130 | The fetched spans are exactly those of events on the provider's calendars starting on the requested day |
| BookingModel.AvailableSlotMeaning | backend/models/Booking.ts:109-168 | For a known type of positive duration and non-empty events, the k-th step from 09:00 is offered iff, measured with the requested duration, it overlaps no same-day live booking and no same-day event of the provider |
| BookingModel.ExtraBookingNeverAddsSlots | backend/models/Booking.ts:115-151 | A new booking can only take slots away |
| BookingModel.ExtraEventNeverAddsSlots | backend/models/Booking.ts:124-164 | A new event can only take slots away |
| BookingModel.LookupIgnoresStatus | backend/models/Booking.ts:22-34 | Changing a row's status does not change which row the lookup finds, only that row's status |
| BookingModel.InsertBooking | backend/models/Booking.ts:36-52 | `create` appends one pending booking with the next id, the given type, start, names and contact, and changes nothing else |
| BookingModel.UpdateStatus | backend/models/Booking.ts:54-69 | `updateStatus` finds a row iff the lookup does, returns it with the new status, sets that status on every row with the id, and leaves the other rows and tables unchanged |
| CalendarModel.CheckTimeConflict | backend/models/Calendar.ts:128-155 | On non-empty events and a non-empty candidate, a conflict means some event on the user's calendars, other than the excluded one, overlaps the candidate half-open |
| CalendarModel.DisjointEventsNeverConflict | backend/models/Calendar.ts:130-139 | An interval disjoint from all of the user's events is never reported as a conflict |
| CalendarModel.FalsyExcludeIsNoExclude | backend/models/Calendar.ts:144-147 | An exclude id of 0 behaves as no exclude at all |
| CalendarModel.ExcludeRemovesExactlyThatEvent | backend/models/Calendar.ts:144-147 | Excluding a truthy id gives the same answer as deleting the events carrying it |
| CalendarModel.AddEvent | backend/models/Calendar.ts:101-126 | An event is written only on a calendar the user owns: one appended row with the next event id, the given span, title and description and no booking; otherwise nothing changes |
| CalendarModel.SortByCreation | backend/models/Calendar.ts:9 | The sort orders calendars by creation time and is a permutation |
| CalendarModel.FindByUserId | backend/models/Calendar.ts:5-17 | `findByUserId` returns exactly the user's calendars, ordered by creation time |
| CalendarModel.FirstCalendarExists | backend/routes/bookings.ts:191-192 | The user has a first calendar iff the user owns some calendar |
| CalendarModel.FirstCalendarIsEarliest | backend/routes/bookings.ts:191-193 | The calendar approval writes to is the user's and no calendar of the user was created earlier |
| CalendarModel.CreateCalendar | backend/models/Calendar.ts:33-49 | `create` appends one calendar of the user with the next id and the given name and description, stamped with the current time |
| CalendarModel.UpdateCalendar | backend/models/Calendar.ts:51-68 | `update` returns nothing iff the user owns no calendar with the id; the rows it selects get the new name and description, every other row is kept, ids, owners and creation times never change, and no other table changes |
| SessionTypeModel.FindById | backend/models/SessionType.ts:19-31 | The lookup finds a type with that id owned by that user, or none exists |
| SessionTypeModel.FindByLink | backend/models/SessionType.ts:33-45 | The lookup finds the first type with that link, or none exists |
| SessionTypeModel.Create | backend/models/SessionType.ts:47-63 | `create` appends one type of the owner with the next id, name, duration and link |
| SessionTypeModel.Update | backend/models/SessionType.ts:65-82 | `update` returns nothing iff the user owns no type with the id; it rewrites the name and duration of exactly the selected rows |
| Rows.FilterCounts | backend/models/SessionType.ts:87-90 | A `DELETE ... WHERE` keeps each unselected row exactly as many times as it occurred and drops every selected one |
| SessionTypeModel.Delete | backend/models/SessionType.ts:84-96 | `delete` reports a deletion iff the user owned such a type; every copy of an unselected row stays and no selected row does, with no other table or counter touched |
| Email.ValidEmailIffPattern | backend/routes/bookings.ts:86-87 | The character scan accepts an address iff it splits as local@domain.tld with non-empty parts free of `@` and whitespace |
| Http.FaultCode | backend/routes/bookings.ts:160-187 | Each fault maps to a 400, 403, 404 or 409 status: 403 iff unauthorized, 404 iff not found, 409 iff a conflict |
| Http.FirstFailure | backend/routes/calendar.ts:178-217 | A chain fails iff some guard fails, and then with the fault of the first failing guard |
| StoreInvariant.ClearedEventKeepsValid | backend/routes/calendar.ts:199-218 | Writing a non-empty event that the conflict query clears keeps the store valid |
| StoreInvariant.AppendedEventKeepsDisjoint | backend/routes/calendar.ts:199-218 | An event on a calendar of the user that overlaps none of the user's events keeps every user's events pairwise disjoint |
| StoreInvariant.NewCalendarKeepsValid | backend/models/Calendar.ts:33-49 | A new calendar keeps the store valid |
| StoreInvariant.RenamedCalendarsKeepValid | backend/models/Calendar.ts:51-68 | A rename that keeps ids and owners keeps the store valid |
| StoreInvariant.NewTypeKeepsValid | backend/routes/sessions.ts:35-41 | A new type with an allowed duration keeps the store valid |
| StoreInvariant.RetypedKeepsValid | backend/models/SessionType.ts:65-82 | An update to an allowed duration keeps the store valid |
| StoreInvariant.DeletedTypeKeepsValid | backend/models/SessionType.ts:84-96 | Deleting types keeps the store valid |
| SessionRoutes.BodyChecksMeaning | backend/routes/sessions.ts:29-39 | A body passes the guards iff it has a name and a duration of 1 to 480 minutes |
| SessionRoutes.ZeroDurationIsMissing | backend/routes/sessions.ts:29-33 | A zero duration is refused as a missing field, not as out of range |
| SessionRoutes.CreateSessionType | backend/routes/sessions.ts:24-53 | Create follows its guard chain, changes nothing on error, and on success appends one type of the caller with the next id, the requested name and duration (1 to 480 minutes) and the generated link, advances only the session-type counter, leaves every other table and counter as it was, and keeps the store valid |
| SessionRoutes.GetSessionType | backend/routes/sessions.ts:55-81 | Get follows id-then-ownership, returns only a type of the caller with that id, and never writes |
| SessionRoutes.UpdateSessionType | backend/routes/sessions.ts:83-125 | Update checks the id, then the body, then ownership; it changes nothing on error and on success rewrites exactly the caller's type, leaving every other table and every id counter as it was |
| SessionRoutes.DeleteSessionType | backend/routes/sessions.ts:127-153 | Delete follows id-then-ownership, changes nothing on error, and on success removes every copy of the caller's type and keeps every copy of every other row, leaving the other tables and the id counters as they were |
| CalendarRoutes.PostCalendar | backend/routes/calendar.ts:24-47 | Create requires a name, changes nothing on error, and on success appends one calendar of the caller with the next id, the requested name and description and the current time, advances only the calendar counter, and keeps the store valid |
| CalendarRoutes.PutCalendar | backend/routes/calendar.ts:77-113 | Rename checks the id, the name, then ownership; it changes nothing on error; on success exactly the caller's calendar with that id gets the new name and description, every other calendar, table and id counter is kept, and the store stays valid |
| CalendarRoutes.PostEvent | backend/routes/calendar.ts:172-230 | A created event spans exactly the requested start and end (start before end), carries the requested title and description, lies on a calendar of the caller, is free of any booking, overlaps none of the caller's events, advances only the event counter, and keeps the store valid; an error changes nothing |
| CalendarRoutes.PostEventFollowsChain | backend/routes/calendar.ts:178-217 | Event creation answers with the first failing guard, in the order id, fields, dates, start before end, conflict, ownership |
| CalendarRoutes.ConflictBeforeOwnership | backend/routes/calendar.ts:205-217 | A clashing event on a calendar not the caller's gets 409, and only a clear one gets 404 |
| BookingRoutes.GetBookingPage | backend/routes/bookings.ts:10-52 | The page follows the link guards and never writes; with no usable date it shows no slots, and with a date it shows the available slots |
| BookingRoutes.PostBooking | backend/routes/bookings.ts:54-137 | Any error leaves the store unchanged; success appends exactly one pending booking of the linked type, with the requested names, email, phone and start, in the future, with a contact and a well-formed email if any, that overlaps no live booking of the provider in a valid store, and keeps the store valid |
| BookingRoutes.RequestBooking | backend/routes/bookings.ts:73-121 | After the link lookup: the same guarantees for the linked type, the stored names, email and phone being the request's |
| BookingRoutes.PostBookingFollowsChain | backend/routes/bookings.ts:59-121 | Create answers with the first failing guard of link, lookup, fields, contact, email, date, past and conflict, and succeeds iff all pass |
| BookingRoutes.RequestFollowsChain | backend/routes/bookings.ts:73-121 | Once the link resolved, the reply is the first failing guard of fields, contact, email, date, past and conflict, and success iff all pass |
| BookingRoutes.ClearedBookingKeepsDisjoint | backend/routes/bookings.ts:107-119 | Appending a booking that no live booking of its provider overlaps keeps live bookings disjoint |
| BookingRoutes.ClearedPairNotDoubleBooked | backend/routes/bookings.ts:107-119 | A booking that passed the conflict gate is not double-booked with any existing booking |
| BookingRoutes.CreateKeepsBookingsDisjoint | backend/routes/bookings.ts:107-121 | Booking creation keeps every provider's live bookings pairwise disjoint |
| BookingRoutes.PhoneAloneIsEnough | backend/routes/bookings.ts:79-92 | With a phone number and no email, neither the contact nor the email guard refuses |
| BookingRoutes.RecordApproval | backend/routes/bookings.ts:189-199 | Approval sets the booking approved, and writes one event exactly when the provider owns a calendar, on the earliest one, with the booking's span; the event counter advances by the events written and nothing else changes |
| BookingRoutes.FileApprovalEvent | backend/routes/bookings.ts:191-199 | The provider's earliest calendar gets one event with the next event id and the booking's span, title and contact, or nothing is written when the provider has no calendar |
| BookingRoutes.RecordApprovalKeepsValid | backend/routes/bookings.ts:180-199 | An approval whose span the event conflict query clears keeps the store valid |
| BookingRoutes.ApproveBooking | backend/routes/bookings.ts:155-211 | Approve changes nothing on error; success sets the status and writes at most the one approval event, advancing the event counter by the events written and touching nothing else, and keeps the store valid |
| BookingRoutes.ApproveFollowsChain | backend/routes/bookings.ts:158-187 | Approve answers with the first failing guard of id, existence, ownership and event conflict |
| BookingRoutes.RejectBooking | backend/routes/bookings.ts:213-250 | Reject changes nothing on error; success sets only the status to rejected |
| BookingRoutes.RejectFollowsChain | backend/routes/bookings.ts:216-236 | Reject answers with the first failing guard of id, existence and ownership |
| BookingRoutes.RecordApprovalFrame | backend/routes/bookings.ts:189-199 | The approval's returned row and events do not depend on the status or other bookings |
| BookingRoutes.ApproveIgnoresStatus | backend/routes/bookings.ts:166-199 | Changing any booking's status changes neither approve's answer nor the events it writes |
| BookingRoutes.RejectIgnoresStatus | backend/routes/bookings.ts:224-238 | Changing any booking's status does not change reject's answer |
| BookingRoutes.ReviewIgnoresStatus | backend/routes/bookings.ts:155-250 | Approve and reject never consult a booking's current status |
| BookingRoutes.ApproveSeesOnlyItsBooking | backend/routes/bookings.ts:166-187 | Approve consults no booking but the one it approves |
| Scenarios.ScenarioA | backend/models/Booking.ts:141-150 | A 30-minute booking at 10:00 takes away the 09:45 and 10:00 slots and leaves 10:30 |
| Scenarios.ScenarioB | backend/routes/bookings.ts:107-121 | On an empty day a request for 14:00 is created pending |
| Scenarios.ScenarioD | backend/routes/bookings.ts:189-199 | Approving with a clear calendar sets the booking approved and writes one event 14:00-14:30 |
| Scenarios.ScenarioE | backend/routes/bookings.ts:180-187 | An event in the way makes approve answer 409 with no change |
| Scenarios.ScenarioF | backend/models/Booking.ts:80 | A pending booking blocks a second request for its slot, and once rejected it no longer does |
| Scenarios.OfferedSlotRefused | backend/models/Booking.ts:142 | A slot offered for a short type is refused with 409 when a longer booking of the provider covers it |
| Scenarios.RejectedBookingRevived | backend/routes/bookings.ts:155-189 | Approving a rejected booking after its slot was rebooked succeeds and leaves two live bookings of one provider overlapping |

## Left out

- Authentication and the auth middleware: the caller's user id is a parameter.
- The database layer: connections, the 500 answers from caught exceptions, and
  response bodies beyond the returned row.
- Date parsing, timezones and daylight saving: instants are integers in one
  offset-zero timezone. The `date` and `start_time` fields are already parsed,
  blank or garbled (`TimeField`).
- The current time, the public link and `created_at` are parameters: the
  first comes from the clock, and the other two are store defaults that the
  inserts at backend/models/SessionType.ts:47-63 and
  backend/models/Calendar.ts:33-49 do not set.
- Two requests racing past the conflict check together: handlers are modelled
  as atomic, so the race is not represented.
- The routes that only list or read rows: `GET /calendars`,
  `GET /calendars/:id`, `GET /calendars/:id/events`, `GET /session-types` and
  `GET /bookings`, and the models' `findBySessionTypeUserId`, `findById` of
  calendars, `getEvents` and the session-type `findByUserId`. None of them writes.
  `GET /calendars/:id` and `GET /calendars/:id/events` do validate: a
  non-numeric id answers 400 and a missing or foreign calendar 404
  (backend/routes/calendar.ts:54-66 and 148-159); these two guard chains are
  not modelled.
- `DELETE /calendars/:id` and the database's cascades on delete, which belong
  to the schema, not to the handlers.
- Numbers that are not integers, and integer widths: ids and minutes are
  unbounded integers, and a non-numeric path id is `NaN`.
- The frontend, including its limiting of the approve and reject buttons to
  pending bookings.
- BookingModel.InsertBooking: the insert names no status column, so the model assumes the
  schema's default is `pending`; the schema is not part of this model.
- CalendarModel.SortByCreation: calendars created at the same instant keep
  table order; the database promises no order among ties.
- BookingModel.GetAvailableSlots: the same-day filter uses the instant's day
  number in the one timezone; `DATE()` in another timezone may group instants
  differently.

=== FILE: booking_model.dfy ===
/** `BookingModel` (backend/models/Booking.ts): the write-time conflict
    query, available-slot computation on the store, and the two writes. */
module BookingModel {
  import opened Types
  import opened Overlap
  import opened Rows
  import opened Slots
  import opened CalendarModel

  /** Statuses that occupy time: `status IN ('pending', 'approved')`. */
  predicate Live(s: BookingStatus)
  {
    s == Pending || s == Approved
  }

  predicate PositiveDurations(types: seq<SessionType>)
  {
    forall j :: 0 <= j < |types| ==> types[j].durationMinutes > 0
  }

  /** `SELECT ... FROM session_types WHERE id = $1`, not scoped to an owner. */
  function FindSessionType(st: Store, id: int): (r: Option<SessionType>)
    ensures r.Some? ==> r.value in st.sessionTypes && r.value.id == id
    ensures r.None? <==> forall j :: 0 <= j < |st.sessionTypes| ==> st.sessionTypes[j].id != id
  {
    First(st.sessionTypes, (t: SessionType) => t.id == id)
  }

  /** `findById`: the first booking with this id. */
  function FindBooking(st: Store, id: int): (r: Option<Booking>)
    ensures r.Some? ==> r.value in st.bookings && r.value.id == id
    ensures r.None? <==> forall i :: 0 <= i < |st.bookings| ==> st.bookings[i].id != id
    ensures r.Some? ==> exists i :: 0 <= i < |st.bookings| && st.bookings[i] == r.value
                                    && forall m :: 0 <= m < i ==> st.bookings[m].id != id
  {
    First(st.bookings, (b: Booking) => b.id == id)
  }

  /** Booking `b`, joined with session-type row `t`, belongs to `provider`,
      occupies time, and the source's test hits it for `[s, e)`. Its interval
      uses its own type's duration. */
  predicate BookingHit(provider: int, s: int, e: int, b: Booking, t: SessionType)
  {
    && t.id == b.sessionTypeId && t.owner == provider && Live(b.status)
    && ThreeClause(s, e, b.start, b.start + t.durationMinutes * MsPerMinute)
  }

  /** The half-open reading of `BookingHit`, for positive durations. */
  predicate BookingOverlaps(provider: int, s: int, e: int, b: Booking, t: SessionType)
  {
    && t.id == b.sessionTypeId && t.owner == provider && b.status != Rejected
    && Overlaps(s, e, b.start, b.start + t.durationMinutes * MsPerMinute)
  }

  lemma BookingHitIsOverlap(provider: int, s: int, e: int, b: Booking, t: SessionType)
    requires s < e && t.durationMinutes > 0
    ensures BookingHit(provider, s, e, b, t) <==> BookingOverlaps(provider, s, e, b, t)
  {
    assert b.start < b.start + t.durationMinutes * MsPerMinute;
  }

  /** Some booking of `bookings`, with its type among `types`, overlaps
      `[s, e)` half-open. */
  predicate AnyOverlap(provider: int, s: int, e: int, bookings: seq<Booking>, types: seq<SessionType>)
  {
    exists i, j | 0 <= i < |bookings| && 0 <= j < |types| :: BookingOverlaps(provider, s, e, bookings[i], types[j])
  }

  /** Some booking of `bookings`, with its type among `types`, hits
      `[s, e)`. */
  predicate AnyHit(provider: int, s: int, e: int, bookings: seq<Booking>, types: seq<SessionType>)
  {
    exists i, j | 0 <= i < |bookings| && 0 <= j < |types| :: BookingHit(provider, s, e, bookings[i], types[j])
  }

  /** `checkBookingConflict`: the candidate `[start, start + minutes)` is hit
      by some pending or approved booking of the provider who owns
      `sessionTypeId`. With positive durations this is the half-open
      overlap, and rejected bookings never take part. */
  function CheckBookingConflict(st: Store, sessionTypeId: int, start: int, minutes: int): (conflict: bool)
    ensures FindSessionType(st, sessionTypeId).None? ==> !conflict
    ensures PositiveDurations(st.sessionTypes) && minutes > 0 && FindSessionType(st, sessionTypeId).Some? ==>
      (conflict <==> AnyOverlap(FindSessionType(st, sessionTypeId).value.owner, start, start + minutes * MsPerMinute,
                                st.bookings, st.sessionTypes))
  {
    match FindSessionType(st, sessionTypeId)
    case None => false
    case Some(t) =>
      var e := start + minutes * MsPerMinute;
      assert PositiveDurations(st.sessionTypes) && minutes > 0 ==>
        forall i, j | 0 <= i < |st.bookings| && 0 <= j < |st.sessionTypes| ::
          BookingHit(t.owner, start, e, st.bookings[i], st.sessionTypes[j])
          <==> BookingOverlaps(t.owner, start, e, st.bookings[i], st.sessionTypes[j]) by {
        if PositiveDurations(st.sessionTypes) && minutes > 0 {
          forall i, j | 0 <= i < |st.bookings| && 0 <= j < |st.sessionTypes|
            ensures BookingHit(t.owner, start, e, st.bookings[i], st.sessionTypes[j])
                    <==> BookingOverlaps(t.owner, start, e, st.bookings[i], st.sessionTypes[j])
          {
            BookingHitIsOverlap(t.owner, start, e, st.bookings[i], st.sessionTypes[j]);
          }
        }
      }
      AnyHit(t.owner, start, e, st.bookings, st.sessionTypes)
  }

  /** A rejected booking hits nothing. */
  lemma {:induction false} RejectedNeverHits(provider: int, s: int, e: int, bookings: seq<Booking>, b: Booking,
                                             types: seq<SessionType>)
    requires b.status == Rejected
    ensures AnyHit(provider, s, e, bookings + [b], types) == AnyHit(provider, s, e, bookings, types)
  {
    var bs := bookings + [b];
    if AnyHit(provider, s, e, bs, types) {
      var i, j :| 0 <= i < |bs| && 0 <= j < |types| && BookingHit(provider, s, e, bs[i], types[j]);
      assert i < |bookings|;
      assert bookings[i] == bs[i];
    }
    if AnyHit(provider, s, e, bookings, types) {
      var i, j :| 0 <= i < |bookings| && 0 <= j < |types| && BookingHit(provider, s, e, bookings[i], types[j]);
      assert bs[i] == bookings[i];
    }
  }

  /** A rejected booking, wherever it is added, changes no conflict answer. */
  lemma RejectedBookingNeverConflicts(st: Store, b: Booking, sessionTypeId: int, start: int, minutes: int)
    requires b.status == Rejected
    ensures CheckBookingConflict(st.(bookings := st.bookings + [b]), sessionTypeId, start, minutes)
         == CheckBookingConflict(st, sessionTypeId, start, minutes)
  {
    var st' := st.(bookings := st.bookings + [b]);
    assert FindSessionType(st', sessionTypeId) == FindSessionType(st, sessionTypeId);
    if FindSessionType(st, sessionTypeId).Some? {
      RejectedNeverHits(FindSessionType(st, sessionTypeId).value.owner, start, start + minutes * MsPerMinute,
                        st.bookings, b, st.sessionTypes);
    }
  }

  /** Two bookings of one provider that both occupy time and whose
      intervals, each from its own type's duration, overlap. */
  predicate DoubleBooked(st: Store, a: Booking, b: Booking)
  {
    var ta := FindSessionType(st, a.sessionTypeId);
    var tb := FindSessionType(st, b.sessionTypeId);
    && ta.Some? && tb.Some? && ta.value.owner == tb.value.owner
    && Live(a.status) && Live(b.status)
    && Overlaps(a.start, a.start + ta.value.durationMinutes * MsPerMinute,
                b.start, b.start + tb.value.durationMinutes * MsPerMinute)
  }

  /** No provider has two live bookings at once. */
  predicate BookingsDisjoint(st: Store)
  {
    forall i, k :: 0 <= i < k < |st.bookings| ==> !DoubleBooked(st, st.bookings[i], st.bookings[k])
  }

  /** The calendar day of an instant, in the one implicit timezone. */
  function DayOf(t: int): int
  {
    t / MsPerDay
  }

  /** 09:00 on the day of `date`. */
  function WindowStart(date: int): int
  {
    DayOf(date) * MsPerDay + WindowOpenMs
  }

  /** 17:00 on the day of `date`. */
  function WindowEnd(date: int): int
  {
    DayOf(date) * MsPerDay + WindowCloseMs
  }

  /** A positive number of minutes is a positive number of milliseconds. */
  lemma DurationIsPositive(minutes: int)
    requires minutes > 0
    ensures minutes * MsPerMinute > 0
  {
  }

  /** The day of `date` is a working window. */
  lemma DayWindow(date: int)
    ensures WorkingWindow(WindowStart(date), WindowEnd(date))
  {
  }

  /** A pending or approved booking of `provider` starting on `day`. */
  predicate BookedOn(types: seq<SessionType>, b: Booking, provider: int, day: int)
  {
    && Live(b.status) && DayOf(b.start) == day
    && exists j :: 0 <= j < |types| && types[j].id == b.sessionTypeId && types[j].owner == provider
  }

  /** The starts the slot query fetches: `existingBookings`. */
  function LiveStartsOn(types: seq<SessionType>, bookings: seq<Booking>, provider: int, day: int): (starts: seq<int>)
    ensures forall x :: x in starts <==>
      exists i :: 0 <= i < |bookings| && BookedOn(types, bookings[i], provider, day) && bookings[i].start == x
  {
    FilterMap(bookings, (b: Booking) => BookedOn(types, b, provider, day), (b: Booking) => b.start)
  }

  /** An event on one of `provider`'s calendars starting on `day`. */
  predicate EventOn(cals: seq<Calendar>, ev: CalendarEvent, provider: int, day: int)
  {
    OwnsCalendar(cals, ev.calendarId, provider) && DayOf(ev.start) == day
  }

  /** The events the slot query fetches: `existingEvents`. */
  function EventsOn(cals: seq<Calendar>, events: seq<CalendarEvent>, provider: int, day: int): (spans: seq<Span>)
    ensures forall sp :: sp in spans <==>
      exists i :: 0 <= i < |events| && EventOn(cals, events[i], provider, day)
                  && Span(events[i].start, events[i].end) == sp
  {
    FilterMap(events, (ev: CalendarEvent) => EventOn(cals, ev, provider, day),
              (ev: CalendarEvent) => Span(ev.start, ev.end))
  }

  /** The free candidates of the day of `date` for a type `t`: its
      duration, against that day's bookings and events of its owner. */
  function SlotsOfType(st: Store, t: SessionType, date: int): seq<int>
  {
    FreeSlots(Candidates(WindowStart(date), WindowEnd(date)), t.durationMinutes * MsPerMinute,
              LiveStartsOn(st.sessionTypes, st.bookings, t.owner, DayOf(date)), EventsOn(st.calendars, st.events, t.owner, DayOf(date)))
  }

  /** `getAvailableSlots`: an unknown session type gives no slots; otherwise
      the free candidates of the day of `date`, for the type's duration,
      against that day's bookings and events of the type's owner. At most 32
      slots, ascending, each a 15-minute step from 09:00. */
  function GetAvailableSlots(st: Store, sessionTypeId: int, date: int): (slots: seq<int>)
    ensures FindSessionType(st, sessionTypeId).None? ==> slots == []
    ensures |slots| <= 32 && Ascending(slots)
    ensures forall x :: x in slots ==> exists k :: 0 <= k < 32 && x == WindowStart(date) + k * SlotStepMs
  {
    match FindSessionType(st, sessionTypeId)
    case None => []
    case Some(t) =>
      DayWindow(date);
      FreeWorkingSlots(WindowStart(date), WindowEnd(date), t.durationMinutes * MsPerMinute,
        LiveStartsOn(st.sessionTypes, st.bookings, t.owner, DayOf(date)), EventsOn(st.calendars, st.events, t.owner, DayOf(date)));
      SlotsOfType(st, t, date)
  }

  /** `[x, x + d)` overlaps, half-open, none of the same-day pending or
      approved bookings of `provider`, each taken as `[start, start + d)`. */
  predicate ClearOfBookings(types: seq<SessionType>, bookings: seq<Booking>, provider: int, day: int, x: int, d: int)
  {
    forall i :: 0 <= i < |bookings| && BookedOn(types, bookings[i], provider, day) ==>
      !Overlaps(x, x + d, bookings[i].start, bookings[i].start + d)
  }

  /** `[x, x + d)` overlaps, half-open, none of the same-day events on the
      calendars of `provider`. */
  predicate ClearOfEvents(cals: seq<Calendar>, events: seq<CalendarEvent>, provider: int, day: int, x: int, d: int)
  {
    forall i :: 0 <= i < |events| && EventOn(cals, events[i], provider, day) ==>
      !Overlaps(x, x + d, events[i].start, events[i].end)
  }

  /** The fetched events of a store with non-empty events are non-empty. */
  lemma FetchedSpansNonEmpty(cals: seq<Calendar>, events: seq<CalendarEvent>, provider: int, day: int)
    requires EventsNonEmpty(events)
    ensures var spans := EventsOn(cals, events, provider, day);
      forall j :: 0 <= j < |spans| ==> spans[j].start < spans[j].end
  {
    var spans := EventsOn(cals, events, provider, day);
    forall j | 0 <= j < |spans| ensures spans[j].start < spans[j].end {
      assert spans[j] in spans;
    }
  }

  /** A span clears the fetched booking starts exactly when it clears
      every booking they were taken from. */
  lemma StartsClear(types: seq<SessionType>, bookings: seq<Booking>, provider: int, day: int, x: int, d: int)
    ensures ClearOfStarts(x, d, LiveStartsOn(types, bookings, provider, day)) <==> ClearOfBookings(types, bookings, provider, day, x, d)
  {
    var starts := LiveStartsOn(types, bookings, provider, day);
    if ClearOfStarts(x, d, starts) {
      forall i | 0 <= i < |bookings| && BookedOn(types, bookings[i], provider, day)
        ensures !Overlaps(x, x + d, bookings[i].start, bookings[i].start + d)
      {
        assert bookings[i].start in starts;
        var m :| 0 <= m < |starts| && starts[m] == bookings[i].start;
      }
    } else {
      var m :| 0 <= m < |starts| && Overlaps(x, x + d, starts[m], starts[m] + d);
      assert starts[m] in starts;
    }
  }

  /** Likewise for the fetched event spans. */
  lemma SpansClear(cals: seq<Calendar>, events: seq<CalendarEvent>, provider: int, day: int, x: int, d: int)
    ensures ClearOfSpans(x, d, EventsOn(cals, events, provider, day)) <==> ClearOfEvents(cals, events, provider, day, x, d)
  {
    var spans := EventsOn(cals, events, provider, day);
    if ClearOfSpans(x, d, spans) {
      forall i | 0 <= i < |events| && EventOn(cals, events[i], provider, day)
        ensures !Overlaps(x, x + d, events[i].start, events[i].end)
      {
        assert Span(events[i].start, events[i].end) in spans;
        var m :| 0 <= m < |spans| && spans[m] == Span(events[i].start, events[i].end);
      }
    } else {
      var m :| 0 <= m < |spans| && Overlaps(x, x + d, spans[m].start, spans[m].end);
      assert spans[m] in spans;
    }
  }

  /** For a known type the slots are that type's free candidates. */
  lemma SlotsOfKnownType(st: Store, sessionTypeId: int, date: int)
    requires FindSessionType(st, sessionTypeId).Some?
    ensures GetAvailableSlots(st, sessionTypeId, date) == SlotsOfType(st, FindSessionType(st, sessionTypeId).value, date)
  {
  }

  /** On the window of the day of `date`, the `k`-th step is a free slot
      iff it is clear of the booking starts and the non-empty event spans. */
  lemma WindowSlotMeaning(date: int, d: int, starts: seq<int>, spans: seq<Span>, k: int)
    requires d > 0
    requires forall j :: 0 <= j < |spans| ==> spans[j].start < spans[j].end
    requires 0 <= k < 32
    ensures var x := WindowStart(date) + k * SlotStepMs;
      x in FreeSlots(Candidates(WindowStart(date), WindowEnd(date)), d, starts, spans) <==>
        ClearOfStarts(x, d, starts) && ClearOfSpans(x, d, spans)
  {
    DayWindow(date);
    WorkingSlotMembership(WindowStart(date), WindowEnd(date), d, starts, spans, k);
  }

  /** The meaning of the free candidates of a type `t` of positive
      duration, one candidate at a time. */
  lemma TypeSlotMeaning(st: Store, t: SessionType, date: int, k: int)
    requires t.durationMinutes > 0
    requires EventsNonEmpty(st.events)
    requires 0 <= k < 32
    ensures var d := t.durationMinutes * MsPerMinute;
            var x := WindowStart(date) + k * SlotStepMs;
      x in SlotsOfType(st, t, date) <==>
        ClearOfStarts(x, d, LiveStartsOn(st.sessionTypes, st.bookings, t.owner, DayOf(date)))
        && ClearOfSpans(x, d, EventsOn(st.calendars, st.events, t.owner, DayOf(date)))
  {
    var d := t.durationMinutes * MsPerMinute;
    var starts := LiveStartsOn(st.sessionTypes, st.bookings, t.owner, DayOf(date));
    var spans := EventsOn(st.calendars, st.events, t.owner, DayOf(date));
    DurationIsPositive(t.durationMinutes);
    FetchedSpansNonEmpty(st.calendars, st.events, t.owner, DayOf(date));
    WindowSlotMeaning(date, d, starts, spans, k);
  }

  /** A window candidate `x` is offered iff `[x, x + d)`, with `d` the
      requested type's duration, overlaps (half-open) no same-day pending or
      approved booking of the owner, each taken as `[start, start + d)`, and
      no same-day event on the owner's calendars. */
  lemma AvailableSlotMeaning(st: Store, sessionTypeId: int, date: int, k: int)
    requires FindSessionType(st, sessionTypeId).Some?
    requires FindSessionType(st, sessionTypeId).value.durationMinutes > 0
    requires EventsNonEmpty(st.events)
    requires 0 <= k < 32
    ensures var t := FindSessionType(st, sessionTypeId).value;
            var d := t.durationMinutes * MsPerMinute;
            var x := WindowStart(date) + k * SlotStepMs;
      x in GetAvailableSlots(st, sessionTypeId, date) <==>
        ClearOfBookings(st.sessionTypes, st.bookings, t.owner, DayOf(date), x, d)
        && ClearOfEvents(st.calendars, st.events, t.owner, DayOf(date), x, d)
  {
    var t := FindSessionType(st, sessionTypeId).value;
    var d := t.durationMinutes * MsPerMinute;
    var x := WindowStart(date) + k * SlotStepMs;
    SlotsOfKnownType(st, sessionTypeId, date);
    TypeSlotMeaning(st, t, date, k);
    StartsClear(st.sessionTypes, st.bookings, t.owner, DayOf(date), x, d);
    SpansClear(st.calendars, st.events, t.owner, DayOf(date), x, d);
  }

  /** The fetched starts only grow when a booking is added. */
  lemma MoreBookingsMoreStarts(types: seq<SessionType>, bookings: seq<Booking>, b: Booking, provider: int, day: int)
    ensures forall x :: x in LiveStartsOn(types, bookings, provider, day) ==>
              x in LiveStartsOn(types, bookings + [b], provider, day)
  {
    forall x | x in LiveStartsOn(types, bookings, provider, day)
      ensures x in LiveStartsOn(types, bookings + [b], provider, day)
    {
      var i :| 0 <= i < |bookings| && BookedOn(types, bookings[i], provider, day) && bookings[i].start == x;
      assert (bookings + [b])[i] == bookings[i];
    }
  }

  /** A new booking can only remove available slots, never add one. */
  lemma ExtraBookingNeverAddsSlots(st: Store, b: Booking, sessionTypeId: int, date: int)
    ensures forall x :: x in GetAvailableSlots(st.(bookings := st.bookings + [b]), sessionTypeId, date) ==>
                        x in GetAvailableSlots(st, sessionTypeId, date)
  {
    var st' := st.(bookings := st.bookings + [b]);
    assert FindSessionType(st', sessionTypeId) == FindSessionType(st, sessionTypeId);
    if FindSessionType(st, sessionTypeId).Some? {
      var t := FindSessionType(st, sessionTypeId).value;
      MoreBookingsMoreStarts(st.sessionTypes, st.bookings, b, t.owner, DayOf(date));
      BusierDayFewerSlots(Candidates(WindowStart(date), WindowEnd(date)), t.durationMinutes * MsPerMinute,
        LiveStartsOn(st.sessionTypes, st.bookings, t.owner, DayOf(date)), EventsOn(st.calendars, st.events, t.owner, DayOf(date)),
        LiveStartsOn(st'.sessionTypes, st'.bookings, t.owner, DayOf(date)), EventsOn(st'.calendars, st'.events, t.owner, DayOf(date)));
      assert GetAvailableSlots(st, sessionTypeId, date) == SlotsOfType(st, t, date);
      assert GetAvailableSlots(st', sessionTypeId, date) == SlotsOfType(st', t, date);
    }
  }

  /** The fetched events only grow when an event is added. */
  lemma MoreEventsMoreSpans(cals: seq<Calendar>, events: seq<CalendarEvent>, ev: CalendarEvent, provider: int, day: int)
    ensures forall sp :: sp in EventsOn(cals, events, provider, day) ==>
              sp in EventsOn(cals, events + [ev], provider, day)
  {
    forall sp | sp in EventsOn(cals, events, provider, day)
      ensures sp in EventsOn(cals, events + [ev], provider, day)
    {
      var i :| 0 <= i < |events| && EventOn(cals, events[i], provider, day)
               && Span(events[i].start, events[i].end) == sp;
      assert (events + [ev])[i] == events[i];
    }
  }

  /** A new event can only remove available slots, never add one. */
  lemma ExtraEventNeverAddsSlots(st: Store, ev: CalendarEvent, sessionTypeId: int, date: int)
    ensures forall x :: x in GetAvailableSlots(st.(events := st.events + [ev]), sessionTypeId, date) ==>
                        x in GetAvailableSlots(st, sessionTypeId, date)
  {
    var st' := st.(events := st.events + [ev]);
    assert FindSessionType(st', sessionTypeId) == FindSessionType(st, sessionTypeId);
    if FindSessionType(st, sessionTypeId).Some? {
      var t := FindSessionType(st, sessionTypeId).value;
      MoreEventsMoreSpans(st.calendars, st.events, ev, t.owner, DayOf(date));
      BusierDayFewerSlots(Candidates(WindowStart(date), WindowEnd(date)), t.durationMinutes * MsPerMinute,
        LiveStartsOn(st.sessionTypes, st.bookings, t.owner, DayOf(date)), EventsOn(st.calendars, st.events, t.owner, DayOf(date)),
        LiveStartsOn(st'.sessionTypes, st'.bookings, t.owner, DayOf(date)), EventsOn(st'.calendars, st'.events, t.owner, DayOf(date)));
      assert GetAvailableSlots(st, sessionTypeId, date) == SlotsOfType(st, t, date);
      assert GetAvailableSlots(st', sessionTypeId, date) == SlotsOfType(st', t, date);
    }
  }

  /** A booking with its status replaced; every other column kept. */
  function WithStatus(bookings: seq<Booking>, k: int, status: BookingStatus): (r: seq<Booking>)
    requires 0 <= k < |bookings|
    ensures |r| == |bookings| && r[k] == bookings[k].(status := status)
    ensures forall i :: 0 <= i < |bookings| && i != k ==> r[i] == bookings[i]
  {
    bookings[k := bookings[k].(status := status)]
  }

  /** The lookup by id answers the first row carrying the id. */
  lemma FindBookingAt(st: Store, id: int, i: int)
    requires 0 <= i < |st.bookings| && st.bookings[i].id == id
    requires forall m :: 0 <= m < i ==> st.bookings[m].id != id
    ensures FindBooking(st, id) == Some(st.bookings[i])
  {
    var f := FindBooking(st, id);
    assert f.Some?;
    var j :| 0 <= j < |st.bookings| && st.bookings[j] == f.value
             && forall m :: 0 <= m < j ==> st.bookings[m].id != id;
    assert !(i < j) && !(j < i);
  }

  /** The lookup by id finds the same row whatever that row's status, and
      the row differs at most in its status. */
  lemma {:induction false} LookupIgnoresStatus(st: Store, k: int, status: BookingStatus, id: int)
    requires 0 <= k < |st.bookings|
    ensures var found := FindBooking(st.(bookings := WithStatus(st.bookings, k, status)), id);
      && found.None? == FindBooking(st, id).None?
      && (found.Some? ==> found.value == FindBooking(st, id).value.(status := found.value.status))
  {
    var st2 := st.(bookings := WithStatus(st.bookings, k, status));
    assert forall i :: 0 <= i < |st.bookings| ==> st2.bookings[i].id == st.bookings[i].id;
    var f := FindBooking(st, id);
    if f.Some? {
      var i :| 0 <= i < |st.bookings| && st.bookings[i] == f.value
               && forall m :: 0 <= m < i ==> st.bookings[m].id != id;
      FindBookingAt(st2, id, i);
    }
  }

  /** `create`: appends one booking. The insert names no status, so it takes
      the table default, assumed here to be `pending`. */
  function InsertBooking(st: Store, sessionTypeId: int, firstName: string, lastName: string,
                         email: string, phone: string, start: int): (w: Written<Booking>)
    ensures w.row.Some? && w.row.value.status == Pending && w.row.value.start == start
    ensures w.row.value.sessionTypeId == sessionTypeId && w.row.value.id == st.nextBookingId
    ensures w.row.value.firstName == firstName && w.row.value.lastName == lastName
    ensures w.row.value.email == email && w.row.value.phone == phone
    ensures w.store == st.(bookings := st.bookings + [w.row.value], nextBookingId := st.nextBookingId + 1)
  {
    var b := Booking(st.nextBookingId, sessionTypeId, firstName, lastName, email, phone, start, Pending);
    Written(Some(b), st.(bookings := st.bookings + [b], nextBookingId := st.nextBookingId + 1))
  }

  /** `updateStatus`: every booking with this id takes the new status and
      nothing else changes; the answer is the first such booking, updated. */
  function UpdateStatus(st: Store, id: int, status: BookingStatus): (w: Written<Booking>)
    ensures w.row.None? <==> FindBooking(st, id).None?
    ensures w.row.Some? ==> w.row.value == FindBooking(st, id).value.(status := status)
    ensures w.store == st.(bookings := w.store.bookings)
    ensures |w.store.bookings| == |st.bookings|
    ensures forall i :: 0 <= i < |st.bookings| ==>
      w.store.bookings[i] == if st.bookings[i].id == id then st.bookings[i].(status := status) else st.bookings[i]
  {
    var bookings := UpdateWhere(st.bookings, (b: Booking) => b.id == id, (b: Booking) => b.(status := status));
    match FindBooking(st, id)
    case None => Written(None, st.(bookings := bookings))
    case Some(b) => Written(Some(b.(status := status)), st.(bookings := bookings))
  }
}

=== FILE: booking_routes.dfy ===
/** The booking routes (backend/routes/bookings.ts): the public booking page
    and booking request, and the provider's approve and reject. Each is a
    total function from the store and the request to a reply and the store
    after it. */
module BookingRoutes {
  import opened Types
  import opened Overlap
  import opened Slots
  import opened Http
  import opened Email
  import opened SessionTypeModel
  import opened CalendarModel
  import opened BookingModel
  import opened StoreInvariant

  /** The JSON body of a booking request. Absent strings are empty. */
  datatype BookingRequest = BookingRequest(
    firstName: string,
    lastName: string,
    email: string,
    phone: string,
    startTime: TimeField)

  /** What the booking page shows: the session type and the offered starts. */
  datatype BookingPage = BookingPage(sessionType: SessionType, slots: seq<int>)

  /** The guards in front of both public routes. */
  function LinkChecks(st: Store, link: string): (checks: seq<Check>)
  {
    [ Check(link != [], LinkRequired),
      Check(FindByLink(st, link).Some?, NotFound) ]
  }

  /** `GET /book/:uniqueLink?date=`: the linked type and, when `date` parses,
      its available slots on that day; a missing or garbled date gives an
      empty list and still succeeds. Nothing is written. */
  function GetBookingPage(st: Store, link: string, date: TimeField): (r: Reply<BookingPage>)
    ensures FollowsChain(r.result, LinkChecks(st, link))
    ensures r.store == st
    ensures r.result.Ok? ==> r.result.code == 200 && FindByLink(st, link) == Some(r.result.value.sessionType)
    ensures r.result.Ok? && !date.At? ==> r.result.value.slots == []
    ensures r.result.Ok? && date.At? ==>
      r.result.value.slots == GetAvailableSlots(st, r.result.value.sessionType.id, date.ms)
  {
    if link == [] then Reply(Err(LinkRequired), st)
    else
      match FindByLink(st, link)
      case None =>
        assert LinkChecks(st, link)[0].passes && !LinkChecks(st, link)[1].passes;
        Reply(Err(NotFound), st)
      case Some(t) =>
        var slots := if date.At? then GetAvailableSlots(st, t.id, date.ms) else [];
        Reply(Ok(200, BookingPage(t, slots)), st)
  }

  /** A start field that parsed to an instant no later than `now`. */
  predicate StartsBy(f: TimeField, now: int)
  {
    f.At? && f.ms <= now
  }

  /** The linked type's provider already has a live booking hit by the
      requested interval. */
  predicate Clashes(st: Store, link: string, f: TimeField)
  {
    && f.At? && FindByLink(st, link).Some?
    && CheckBookingConflict(st, FindByLink(st, link).value.id, f.ms, FindByLink(st, link).value.durationMinutes)
  }

  /** The guards of `POST /book/:uniqueLink`, in source order. */
  function CreateChecks(st: Store, link: string, req: BookingRequest, now: int): (checks: seq<Check>)
  {
    [ Check(link != [], LinkRequired),
      Check(FindByLink(st, link).Some?, NotFound),
      Check(req.firstName != [] && req.lastName != [] && !req.startTime.Blank?, MissingField),
      Check(req.email != [] || req.phone != [], ContactRequired),
      Check(req.email == [] || ValidEmail(req.email), InvalidEmail),
      Check(!req.startTime.Garbled?, InvalidDate),
      Check(!StartsBy(req.startTime, now), PastStart),
      Check(!Clashes(st, link, req.startTime), TimeConflict) ]
  }

  /** `POST /book/:uniqueLink`. Any failing guard leaves the store as it
      was; success appends exactly one pending booking, which starts after
      `now`, carries a usable contact, and in a valid store overlaps no live
      booking of the same provider. */
  function PostBooking(st: Store, link: string, req: BookingRequest, now: int): (r: Reply<Booking>)
    ensures r.result.Err? ==> r.store == st
    ensures r.result.Ok? ==>
      && r.result.code == 201
      && FindByLink(st, link).Some? && req.startTime.At?
      && r.result.value.sessionTypeId == FindByLink(st, link).value.id
      && r.result.value.firstName == req.firstName && r.result.value.lastName == req.lastName
      && r.result.value.email == req.email && r.result.value.phone == req.phone
      && r.result.value.status == Pending
      && r.result.value.start == req.startTime.ms && r.result.value.start > now
      && (r.result.value.email != [] || r.result.value.phone != [])
      && (r.result.value.email != [] ==> MatchesPattern(r.result.value.email))
      && r.store == st.(bookings := st.bookings + [r.result.value], nextBookingId := st.nextBookingId + 1)
    ensures r.result.Ok? && Valid(st) ==>
      var t := FindByLink(st, link).value;
      !AnyOverlap(t.owner, r.result.value.start, r.result.value.start + t.durationMinutes * MsPerMinute,
                  st.bookings, st.sessionTypes)
    ensures Valid(st) ==> Valid(r.store)
  {
    if link == [] then Reply(Err(LinkRequired), st)
    else
      match FindByLink(st, link)
      case None => Reply(Err(NotFound), st)
      case Some(t) => RequestBooking(st, t, req, now)
  }

  /** The guards after the link lookup, for the linked type `t`, and the
      insert once they all pass. */
  function RequestBooking(st: Store, t: SessionType, req: BookingRequest, now: int): (r: Reply<Booking>)
    requires t in st.sessionTypes
    ensures r.result.Err? ==> r.store == st
    ensures r.result.Ok? ==>
      && r.result.code == 201 && req.startTime.At?
      && r.result.value.sessionTypeId == t.id
      && r.result.value.firstName == req.firstName && r.result.value.lastName == req.lastName
      && r.result.value.email == req.email && r.result.value.phone == req.phone
      && r.result.value.status == Pending
      && r.result.value.start == req.startTime.ms && r.result.value.start > now
      && (r.result.value.email != [] || r.result.value.phone != [])
      && (r.result.value.email != [] ==> MatchesPattern(r.result.value.email))
      && r.store == st.(bookings := st.bookings + [r.result.value], nextBookingId := st.nextBookingId + 1)
    ensures r.result.Ok? && Valid(st) ==>
      !AnyOverlap(t.owner, r.result.value.start, r.result.value.start + t.durationMinutes * MsPerMinute,
                  st.bookings, st.sessionTypes)
    ensures Valid(st) ==> Valid(r.store)
  {
    if req.firstName == [] || req.lastName == [] || req.startTime.Blank? then
      Reply(Err(MissingField), st)
    else if req.email == [] && req.phone == [] then
      Reply(Err(ContactRequired), st)
    else if req.email != [] && !ValidEmail(req.email) then
      Reply(Err(InvalidEmail), st)
    else if req.startTime.Garbled? then
      Reply(Err(InvalidDate), st)
    else if req.startTime.ms <= now then
      Reply(Err(PastStart), st)
    else if CheckBookingConflict(st, t.id, req.startTime.ms, t.durationMinutes) then
      Reply(Err(TimeConflict), st)
    else
      ValidEmailIffPattern(req.email);
      var w := InsertBooking(st, t.id, req.firstName, req.lastName, req.email, req.phone, req.startTime.ms);
      assert Valid(st) ==> PositiveDurations(st.sessionTypes) && FindSessionType(st, t.id) == Some(t) by {
        if Valid(st) {
          assert forall j :: 0 <= j < |st.sessionTypes| ==> st.sessionTypes[j] in st.sessionTypes;
          var f := FindSessionType(st, t.id);
          assert f.value in st.sessionTypes;
        }
      }
      Reply(Ok(201, w.row.value), w.store)
  }

  /** The guards of `RequestBooking`, for the linked type `t`. */
  function RequestChecks(st: Store, t: SessionType, req: BookingRequest, now: int): (checks: seq<Check>)
  {
    [ Check(req.firstName != [] && req.lastName != [] && !req.startTime.Blank?, MissingField),
      Check(req.email != [] || req.phone != [], ContactRequired),
      Check(req.email == [] || ValidEmail(req.email), InvalidEmail),
      Check(!req.startTime.Garbled?, InvalidDate),
      Check(!StartsBy(req.startTime, now), PastStart),
      Check(!(req.startTime.At? && CheckBookingConflict(st, t.id, req.startTime.ms, t.durationMinutes)), TimeConflict) ]
  }

  /** Create answers with the first failing guard of its chain, in source
      order, and succeeds exactly when every guard passes. */
  lemma {:induction false} PostBookingFollowsChain(st: Store, link: string, req: BookingRequest, now: int)
    ensures FollowsChain(PostBooking(st, link, req, now).result, CreateChecks(st, link, req, now))
  {
    var checks := CreateChecks(st, link, req, now);
    if link == [] {
    } else if FindByLink(st, link).None? {
      assert checks[0].passes && !checks[1].passes;
    } else {
      var t := FindByLink(st, link).value;
      assert PostBooking(st, link, req, now) == RequestBooking(st, t, req, now);
      RequestFollowsChain(st, t, req, now);
      assert checks[0].passes && checks[1].passes;
      assert checks[2..] == RequestChecks(st, t, req, now);
      PassingPrefix(checks, 2);
    }
  }

  /** After the link lookup, the reply follows the remaining guards. */
  lemma {:induction false} RequestFollowsChain(st: Store, t: SessionType, req: BookingRequest, now: int)
    requires t in st.sessionTypes
    ensures FollowsChain(RequestBooking(st, t, req, now).result, RequestChecks(st, t, req, now))
  {
    var checks := RequestChecks(st, t, req, now);
    if req.firstName == [] || req.lastName == [] || req.startTime.Blank? {
      assert !checks[0].passes;
    } else if req.email == [] && req.phone == [] {
      assert checks[0].passes && !checks[1].passes;
    } else if req.email != [] && !ValidEmail(req.email) {
      assert checks[0].passes && checks[1].passes && !checks[2].passes;
    } else if req.startTime.Garbled? {
      assert checks[0].passes && checks[1].passes && checks[2].passes && !checks[3].passes;
    } else if req.startTime.ms <= now {
      assert checks[0].passes && checks[1].passes && checks[2].passes && checks[3].passes;
      assert !checks[4].passes;
    } else if CheckBookingConflict(st, t.id, req.startTime.ms, t.durationMinutes) {
      assert checks[0].passes && checks[1].passes && checks[2].passes && checks[3].passes;
      assert checks[4].passes && !checks[5].passes;
    } else {
      assert forall k :: 0 <= k < |checks| ==> checks[k].passes;
    }
  }

  /** Appending a booking that no live booking of its provider overlaps
      keeps the bookings disjoint. */
  lemma {:induction false} ClearedBookingKeepsDisjoint(st: Store, st': Store, nb: Booking, t: SessionType)
    requires BookingsDisjoint(st)
    requires st'.sessionTypes == st.sessionTypes && st'.bookings == st.bookings + [nb]
    requires FindSessionType(st, nb.sessionTypeId) == Some(t)
    requires !AnyOverlap(t.owner, nb.start, nb.start + t.durationMinutes * MsPerMinute, st.bookings, st.sessionTypes)
    ensures BookingsDisjoint(st')
  {
    var n := |st.bookings|;
    forall i, k | 0 <= i < k < |st'.bookings|
      ensures !DoubleBooked(st', st'.bookings[i], st'.bookings[k])
    {
      assert FindSessionType(st', st'.bookings[i].sessionTypeId) == FindSessionType(st, st'.bookings[i].sessionTypeId);
      assert FindSessionType(st', st'.bookings[k].sessionTypeId) == FindSessionType(st, st'.bookings[k].sessionTypeId);
      assert st'.bookings[i] == st.bookings[i];
      if k < n {
        assert st'.bookings[k] == st.bookings[k];
      } else {
        assert st'.bookings[k] == nb;
        ClearedPairNotDoubleBooked(st, st.bookings[i], nb, t);
      }
    }
  }

  /** An existing booking and a new one that overlaps no live booking of
      its provider are not double-booked. */
  lemma {:induction false} ClearedPairNotDoubleBooked(st: Store, b: Booking, nb: Booking, t: SessionType)
    requires b in st.bookings
    requires FindSessionType(st, nb.sessionTypeId) == Some(t)
    requires !AnyOverlap(t.owner, nb.start, nb.start + t.durationMinutes * MsPerMinute, st.bookings, st.sessionTypes)
    ensures !DoubleBooked(st, b, nb)
  {
    var tb := FindSessionType(st, b.sessionTypeId);
    if tb.Some? {
      var i :| 0 <= i < |st.bookings| && st.bookings[i] == b;
      var j :| 0 <= j < |st.sessionTypes| && st.sessionTypes[j] == tb.value;
      assert !BookingOverlaps(t.owner, nb.start, nb.start + t.durationMinutes * MsPerMinute, st.bookings[i], st.sessionTypes[j]);
      OverlapsSymmetric(nb.start, nb.start + t.durationMinutes * MsPerMinute,
                        b.start, b.start + tb.value.durationMinutes * MsPerMinute);
    }
  }

  /** Creation keeps every provider's live bookings pairwise disjoint: the
      conflict gate rejects any request that would double-book. */
  lemma CreateKeepsBookingsDisjoint(st: Store, link: string, req: BookingRequest, now: int)
    requires Valid(st) && BookingsDisjoint(st)
    ensures BookingsDisjoint(PostBooking(st, link, req, now).store)
  {
    var r := PostBooking(st, link, req, now);
    if r.result.Ok? {
      var t := FindByLink(st, link).value;
      assert FindSessionType(st, t.id) == Some(t) by {
        var f := FindSessionType(st, t.id);
        assert f.value in st.sessionTypes;
      }
      ClearedBookingKeepsDisjoint(st, r.store, r.result.value, t);
    }
  }

  /** A phone number alone is an acceptable contact. */
  lemma PhoneAloneIsEnough(st: Store, link: string, req: BookingRequest, now: int)
    requires req.email == [] && req.phone != []
    ensures PostBooking(st, link, req, now).result != Err(ContactRequired)
    ensures PostBooking(st, link, req, now).result != Err(InvalidEmail)
  {
  }

  /** The booking a provider's review acts on, if the id parses. */
  function Target(st: Store, id: NumParam): (b: Option<Booking>)
    ensures b.Some? ==> id.Num? && b.value in st.bookings && b.value.id == id.n
  {
    match id
    case NaN => None
    case Num(n) => FindBooking(st, n)
  }

  /** The target's session type, if the caller owns it. */
  function ReviewedType(st: Store, user: int, b: Option<Booking>): (t: Option<SessionType>)
    ensures t.Some? ==> b.Some? && t.value in st.sessionTypes
                        && t.value.id == b.value.sessionTypeId && t.value.owner == user
  {
    match b
    case None => None
    case Some(b) => FindById(st, b.sessionTypeId, user)
  }

  /** The guards approve and reject share. Neither looks at the booking's
      status. */
  function ReviewChecks(st: Store, user: int, id: NumParam): (checks: seq<Check>)
  {
    [ Check(id.Num?, InvalidId),
      Check(Target(st, id).Some?, NotFound),
      Check(ReviewedType(st, user, Target(st, id)).Some?, Unauthorized) ]
  }

  /** The interval an approved booking occupies: its start plus its own
      type's duration. */
  function BookedSpan(b: Booking, t: SessionType): Span
  {
    Span(b.start, b.start + t.durationMinutes * MsPerMinute)
  }

  /** Approve's extra guard: the booking's interval hits an event on one of
      the caller's calendars. Other bookings are not consulted. */
  predicate EventInTheWay(st: Store, user: int, b: Option<Booking>, t: Option<SessionType>)
  {
    && b.Some? && t.Some?
    && CheckTimeConflict(st, user, BookedSpan(b.value, t.value).start, BookedSpan(b.value, t.value).end, None)
  }

  function ApproveChecks(st: Store, user: int, id: NumParam): (checks: seq<Check>)
  {
    var b := Target(st, id);
    var review := ReviewChecks(st, user, id);
    [review[0], review[1], review[2], Check(!EventInTheWay(st, user, b, ReviewedType(st, user, b)), TimeConflict)]
  }

  function ApprovalTitle(t: SessionType, b: Booking): string
  {
    t.name + " with " + b.firstName + " " + b.lastName
  }

  function ApprovalDescription(b: Booking): string
  {
    "Booking contact: " + (if b.email != [] then b.email else b.phone)
  }

  /** The event an approval leaves on the provider's first calendar. */
  predicate IsApprovalEvent(ev: CalendarEvent, cal: Calendar, b: Booking, t: SessionType)
  {
    && ev.calendarId == cal.id && ev.bookingId.None?
    && Span(ev.start, ev.end) == BookedSpan(b, t)
    && ev.title == ApprovalTitle(t, b) && ev.description == ApprovalDescription(b)
  }

  /** Every row with the booking's id gets the new status; nothing else
      in the table changes. */
  predicate StatusSet(before: seq<Booking>, after: seq<Booking>, id: int, status: BookingStatus)
  {
    && |after| == |before|
    && forall i :: 0 <= i < |before| ==>
         after[i] == if before[i].id == id then before[i].(status := status) else before[i]
  }

  /** The calendar write of an approval: one event with the booking's
      interval on the provider's earliest calendar, or nothing when the
      provider has no calendar. */
  function FileApprovalEvent(st: Store, user: int, b: Booking, t: SessionType): (w: Written<CalendarEvent>)
    ensures w.store == st.(events := w.store.events, nextEventId := w.store.nextEventId)
    ensures FindByUserId(st, user) == [] ==> w == Written(None, st)
    ensures FindByUserId(st, user) != [] ==>
      && w.row.Some? && IsApprovalEvent(w.row.value, FindByUserId(st, user)[0], b, t)
      && w.row.value.id == st.nextEventId
      && w.store.events == st.events + [w.row.value] && w.store.nextEventId == st.nextEventId + 1
  {
    var cals := FindByUserId(st, user);
    if |cals| > 0 then
      var span := BookedSpan(b, t);
      FirstCalendarIsEarliest(st, user);
      assert OwnsCalendar(st.calendars, cals[0].id, user) by {
        var k :| 0 <= k < |st.calendars| && st.calendars[k] == cals[0];
      }
      AddEvent(st, cals[0].id, user, ApprovalTitle(t, b), span.start, span.end, ApprovalDescription(b))
    else
      Written(None, st)
  }

  /** The writes of a successful approval of booking `b` of type `t`: the
      status update, then one event on the caller's earliest calendar if
      the caller has any. */
  function RecordApproval(st: Store, user: int, b: Booking, t: SessionType): (w: Written<Booking>)
    requires FindBooking(st, b.id) == Some(b)
    ensures w.row == Some(b.(status := Approved))
    ensures StatusSet(st.bookings, w.store.bookings, b.id, Approved)
    ensures w.store == st.(bookings := w.store.bookings, events := w.store.events, nextEventId := w.store.nextEventId)
    ensures w.store.nextEventId == st.nextEventId + (|w.store.events| - |st.events|)
    ensures FindByUserId(st, user) == [] ==> w.store.events == st.events
    ensures FindByUserId(st, user) != [] ==>
      && |w.store.events| == |st.events| + 1
      && w.store.events[..|st.events|] == st.events
      && IsApprovalEvent(w.store.events[|st.events|], FindByUserId(st, user)[0], b, t)
      && w.store.events[|st.events|].id == st.nextEventId
  {
    var u := UpdateStatus(st, b.id, Approved);
    assert FindByUserId(u.store, user) == FindByUserId(st, user) by {
      assert u.store.calendars == st.calendars;
    }
    var e := FileApprovalEvent(u.store, user, b, t);
    Written(u.row, e.store)
  }

  /** An approval whose interval the event conflict query clears keeps the
      store valid: the status update touches no part of the invariant, and
      the new event is non-empty and overlaps none of the caller's events. */
  lemma RecordApprovalKeepsValid(st: Store, user: int, b: Booking, t: SessionType)
    requires FindBooking(st, b.id) == Some(b)
    requires Valid(st) && t in st.sessionTypes
    requires !CheckTimeConflict(st, user, BookedSpan(b, t).start, BookedSpan(b, t).end, None)
    ensures Valid(RecordApproval(st, user, b, t).store)
  {
    var span := BookedSpan(b, t);
    var u := UpdateStatus(st, b.id, Approved);
    assert Valid(u.store);
    var cals := FindByUserId(u.store, user);
    if |cals| > 0 {
      DurationIsPositive(t.durationMinutes);
      ClearedEventKeepsValid(u.store, cals[0].id, user, ApprovalTitle(t, b), span.start, span.end,
                             ApprovalDescription(b));
    }
  }

  /** `PUT /bookings/:id/approve`. A failing guard changes nothing. Success
      sets the booking approved, whatever its status was, and adds the
      booking's interval as one event on the caller's earliest calendar,
      or no event when the caller has no calendar. */
  function ApproveBooking(st: Store, user: int, id: NumParam): (r: Reply<Booking>)
    ensures r.result.Err? ==> r.store == st
    ensures r.result.Ok? ==>
      && r.result.code == 200 && ReviewedType(st, user, Target(st, id)).Some?
      && r.result.value == Target(st, id).value.(status := Approved)
      && StatusSet(st.bookings, r.store.bookings, id.n, Approved)
      && r.store == st.(bookings := r.store.bookings, events := r.store.events, nextEventId := r.store.nextEventId)
      && r.store.nextEventId == st.nextEventId + (|r.store.events| - |st.events|)
    ensures r.result.Ok? && FindByUserId(st, user) == [] ==> r.store.events == st.events
    ensures r.result.Ok? && FindByUserId(st, user) != [] ==>
      && |r.store.events| == |st.events| + 1
      && r.store.events[..|st.events|] == st.events
      && IsApprovalEvent(r.store.events[|st.events|], FindByUserId(st, user)[0],
                         Target(st, id).value, ReviewedType(st, user, Target(st, id)).value)
      && r.store.events[|st.events|].id == st.nextEventId
    ensures Valid(st) ==> Valid(r.store)
  {
    match id
    case NaN => Reply(Err(InvalidId), st)
    case Num(n) =>
      match FindBooking(st, n)
      case None => Reply(Err(NotFound), st)
      case Some(b) =>
        match FindById(st, b.sessionTypeId, user)
        case None => Reply(Err(Unauthorized), st)
        case Some(t) =>
          var span := BookedSpan(b, t);
          if CheckTimeConflict(st, user, span.start, span.end, None) then Reply(Err(TimeConflict), st)
          else
            var w := RecordApproval(st, user, b, t);
            assert Valid(st) ==> Valid(w.store) by { if Valid(st) { RecordApprovalKeepsValid(st, user, b, t); } }
            Reply(Ok(200, w.row.value), w.store)
  }

  /** Approve answers with the first failing guard: id, existence,
      ownership, then event conflict. */
  lemma {:induction false} ApproveFollowsChain(st: Store, user: int, id: NumParam)
    ensures FollowsChain(ApproveBooking(st, user, id).result, ApproveChecks(st, user, id))
  {
    var checks := ApproveChecks(st, user, id);
    var b := Target(st, id);
    var t := ReviewedType(st, user, b);
    if id.NaN? {
    } else if b.None? {
      assert checks[0].passes && !checks[1].passes;
    } else if t.None? {
      assert checks[0].passes && checks[1].passes && !checks[2].passes;
    } else if EventInTheWay(st, user, b, t) {
      assert checks[0].passes && checks[1].passes && checks[2].passes && !checks[3].passes;
    } else {
      assert forall k :: 0 <= k < |checks| ==> checks[k].passes;
    }
  }

  /** `PUT /bookings/:id/reject`. A failing guard changes nothing. Success
      sets the booking rejected, whatever its status was, with no conflict
      check and no change to any calendar. */
  function RejectBooking(st: Store, user: int, id: NumParam): (r: Reply<Booking>)
    ensures r.result.Err? ==> r.store == st
    ensures r.result.Ok? ==>
      && r.result.code == 200 && Target(st, id).Some?
      && r.result.value == Target(st, id).value.(status := Rejected)
      && StatusSet(st.bookings, r.store.bookings, id.n, Rejected)
      && r.store == st.(bookings := r.store.bookings)
    ensures Valid(st) ==> Valid(r.store)
  {
    match id
    case NaN => Reply(Err(InvalidId), st)
    case Num(n) =>
      match FindBooking(st, n)
      case None => Reply(Err(NotFound), st)
      case Some(b) =>
        match FindById(st, b.sessionTypeId, user)
        case None => Reply(Err(Unauthorized), st)
        case Some(t) =>
          var u := UpdateStatus(st, n, Rejected);
          assert Valid(st) ==> Valid(u.store);
          Reply(Ok(200, u.row.value), u.store)
  }

  /** Reject answers with the first failing guard: id, existence, then
      ownership. */
  lemma {:induction false} RejectFollowsChain(st: Store, user: int, id: NumParam)
    ensures FollowsChain(RejectBooking(st, user, id).result, ReviewChecks(st, user, id))
  {
    var checks := ReviewChecks(st, user, id);
    var b := Target(st, id);
    var t := ReviewedType(st, user, b);
    if id.NaN? {
    } else if b.None? {
      assert checks[0].passes && !checks[1].passes;
    } else if t.None? {
      assert checks[0].passes && checks[1].passes && !checks[2].passes;
    } else {
      assert forall k :: 0 <= k < |checks| ==> checks[k].passes;
    }
  }

  /** The approval event is fixed by its id, the calendar, the type and the
      booking's fields other than its status. */
  lemma ApprovalEventDetermined(e: CalendarEvent, e2: CalendarEvent, cal: Calendar, b: Booking, b2: Booking,
                                t: SessionType)
    requires b2 == b.(status := b2.status)
    requires IsApprovalEvent(e, cal, b, t) && IsApprovalEvent(e2, cal, b2, t) && e.id == e2.id
    ensures e == e2
  {
    assert ApprovalTitle(t, b2) == ApprovalTitle(t, b);
    assert ApprovalDescription(b2) == ApprovalDescription(b);
  }

  /** Two one-element extensions of `s` with the same last element agree. */
  lemma SameExtension(s: seq<CalendarEvent>, a: seq<CalendarEvent>, a2: seq<CalendarEvent>)
    requires |a| == |s| + 1 && |a2| == |s| + 1
    requires a[..|s|] == s && a2[..|s|] == s && a[|s|] == a2[|s|]
    ensures a == a2
  {
    assert a == a[..|s|] + [a[|s|]];
    assert a2 == a2[..|s|] + [a2[|s|]];
  }

  /** The events an approval writes depend on the booking table only
      through the approved row, and on that row's status not at all. */
  lemma RecordApprovalFrame(st: Store, st2: Store, user: int, b: Booking, b2: Booking, t: SessionType)
    requires st2 == st.(bookings := st2.bookings)
    requires FindBooking(st, b.id) == Some(b) && FindBooking(st2, b2.id) == Some(b2)
    requires b2 == b.(status := b2.status)
    ensures RecordApproval(st2, user, b2, t).row == RecordApproval(st, user, b, t).row
    ensures RecordApproval(st2, user, b2, t).store.events == RecordApproval(st, user, b, t).store.events
  {
    var w := RecordApproval(st, user, b, t);
    var w2 := RecordApproval(st2, user, b2, t);
    var cals := FindByUserId(st, user);
    assert FindByUserId(st2, user) == cals by {
      assert st2.calendars == st.calendars;
    }
    if cals != [] {
      var n := |st.events|;
      ApprovalEventDetermined(w.store.events[n], w2.store.events[n], cals[0], b, b2, t);
      SameExtension(st.events, w.store.events, w2.store.events);
    }
  }

  /** The event conflict query reads calendars and events only. */
  lemma EventConflictIgnoresBookings(st: Store, bookings: seq<Booking>, user: int, s: int, e: int)
    ensures CheckTimeConflict(st.(bookings := bookings), user, s, e, None) == CheckTimeConflict(st, user, s, e, None)
  {
    var st2 := st.(bookings := bookings);
    assert st2.calendars == st.calendars && st2.events == st.events;
    assert forall ev :: OnUserCalendar(st2, user, ev) == OnUserCalendar(st, user, ev);
  }

  /** Approve of an id no row carries, or of a booking whose type the
      caller does not own. */
  lemma ApproveOfUnreviewable(st: Store, user: int, n: int)
    ensures FindBooking(st, n).None? ==> ApproveBooking(st, user, Num(n)) == Reply(Err(NotFound), st)
    ensures FindBooking(st, n).Some? && FindById(st, FindBooking(st, n).value.sessionTypeId, user).None? ==>
      ApproveBooking(st, user, Num(n)) == Reply(Err(Unauthorized), st)
  {
  }

  /** Approve of a booking `b` the caller owns through type `t`: the
      conflict answer, or the approval's writes. */
  lemma ApproveOfOwned(st: Store, user: int, n: int, b: Booking, t: SessionType)
    requires FindBooking(st, n) == Some(b) && FindById(st, b.sessionTypeId, user) == Some(t)
    ensures var r := ApproveBooking(st, user, Num(n));
      if CheckTimeConflict(st, user, BookedSpan(b, t).start, BookedSpan(b, t).end, None)
      then r == Reply(Err(TimeConflict), st)
      else r.result == Ok(200, RecordApproval(st, user, b, t).row.value) && r.store == RecordApproval(st, user, b, t).store
  {
  }

  /** Approve reads the booking table only through the row the id finds,
      and ignores that row's status: two stores that differ only in bookings
      and whose lookups agree up to status get the same answer and events. */
  lemma ApproveSeesLookupOnly(st: Store, st2: Store, user: int, n: int)
    requires st2 == st.(bookings := st2.bookings)
    requires FindBooking(st2, n).None? == FindBooking(st, n).None?
    requires FindBooking(st, n).Some? ==>
      FindBooking(st2, n).value == FindBooking(st, n).value.(status := FindBooking(st2, n).value.status)
    ensures ApproveBooking(st2, user, Num(n)).result == ApproveBooking(st, user, Num(n)).result
    ensures ApproveBooking(st2, user, Num(n)).store.events == ApproveBooking(st, user, Num(n)).store.events
  {
    ApproveOfUnreviewable(st, user, n);
    ApproveOfUnreviewable(st2, user, n);
    if FindBooking(st, n).Some? {
      var b := FindBooking(st, n).value;
      var b2 := FindBooking(st2, n).value;
      assert FindById(st2, b2.sessionTypeId, user) == FindById(st, b.sessionTypeId, user);
      if FindById(st, b.sessionTypeId, user).Some? {
        var t := FindById(st, b.sessionTypeId, user).value;
        assert BookedSpan(b2, t) == BookedSpan(b, t);
        EventConflictIgnoresBookings(st, st2.bookings, user, BookedSpan(b, t).start, BookedSpan(b, t).end);
        ApproveOfOwned(st, user, n, b, t);
        ApproveOfOwned(st2, user, n, b2, t);
        RecordApprovalFrame(st, st2, user, b, b2, t);
      }
    }
  }

  /** Changing the status of a booking row changes neither approve's answer
      nor the events it writes. */
  lemma ApproveIgnoresStatus(st: Store, user: int, id: NumParam, k: int, status: BookingStatus)
    requires 0 <= k < |st.bookings|
    ensures var st2 := st.(bookings := WithStatus(st.bookings, k, status));
      && ApproveBooking(st2, user, id).result == ApproveBooking(st, user, id).result
      && ApproveBooking(st2, user, id).store.events == ApproveBooking(st, user, id).store.events
  {
    if id.Num? {
      LookupIgnoresStatus(st, k, status, id.n);
      ApproveSeesLookupOnly(st, st.(bookings := WithStatus(st.bookings, k, status)), user, id.n);
    }
  }

  /** Changing the status of a booking row does not change reject's answer. */
  lemma RejectIgnoresStatus(st: Store, user: int, id: NumParam, k: int, status: BookingStatus)
    requires 0 <= k < |st.bookings|
    ensures var st2 := st.(bookings := WithStatus(st.bookings, k, status));
      RejectBooking(st2, user, id).result == RejectBooking(st, user, id).result
  {
    var st2 := st.(bookings := WithStatus(st.bookings, k, status));
    if id.Num? {
      LookupIgnoresStatus(st, k, status, id.n);
      if FindBooking(st, id.n).Some? {
        var b := FindBooking(st, id.n).value;
        var b2 := FindBooking(st2, id.n).value;
        assert FindById(st2, b2.sessionTypeId, user) == FindById(st, b.sessionTypeId, user);
      }
    }
  }

  /** Approve and reject never look at the current status: changing the
      status of any booking row changes neither answer, nor the events an
      approval writes. A rejected booking can be approved and an approved
      one rejected. */
  lemma ReviewIgnoresStatus(st: Store, user: int, id: NumParam, k: int, status: BookingStatus)
    requires 0 <= k < |st.bookings|
    ensures var st2 := st.(bookings := WithStatus(st.bookings, k, status));
      && ApproveBooking(st2, user, id).result == ApproveBooking(st, user, id).result
      && ApproveBooking(st2, user, id).store.events == ApproveBooking(st, user, id).store.events
      && RejectBooking(st2, user, id).result == RejectBooking(st, user, id).result
  {
    ApproveIgnoresStatus(st, user, id, k, status);
    RejectIgnoresStatus(st, user, id, k, status);
  }

  /** Approve consults no booking other than the one it approves: two
      stores that differ only in bookings, but agree on that booking, get
      the same answer and the same events. */
  lemma ApproveSeesOnlyItsBooking(st: Store, bookings: seq<Booking>, user: int, n: int)
    requires FindBooking(st.(bookings := bookings), n) == FindBooking(st, n)
    ensures ApproveBooking(st.(bookings := bookings), user, Num(n)).result == ApproveBooking(st, user, Num(n)).result
    ensures ApproveBooking(st.(bookings := bookings), user, Num(n)).store.events
         == ApproveBooking(st, user, Num(n)).store.events
  {
    ApproveSeesLookupOnly(st, st.(bookings := bookings), user, n);
  }
}

=== FILE: calendar_model.dfy ===
/** `CalendarModel` (backend/models/Calendar.ts): calendar lookup in
    creation order, the event-conflict query and the ownership-gated event
    insert. */
module CalendarModel {
  import opened Types
  import opened Overlap
  import opened Rows

  /** Some calendar row with this id belongs to `user` (the JOIN
      `calendars c ON ... c.user_id = $1`). */
  predicate OwnsCalendar(cals: seq<Calendar>, calendarId: int, user: int)
  {
    exists k :: 0 <= k < |cals| && cals[k].id == calendarId && cals[k].owner == user
  }

  /** An event lies on one of `user`'s calendars. */
  predicate OnUserCalendar(st: Store, user: int, ev: CalendarEvent)
  {
    OwnsCalendar(st.calendars, ev.calendarId, user)
  }

  /** `excludeEventId` is applied only when truthy: absent and 0 exclude
      nothing. */
  predicate Excludes(exclude: Option<int>, eventId: int)
  {
    exclude.Some? && exclude.value != 0 && exclude.value == eventId
  }

  predicate EventsNonEmpty(events: seq<CalendarEvent>)
  {
    forall i :: 0 <= i < |events| ==> events[i].start < events[i].end
  }

  /** `checkTimeConflict`: does the source's three-clause test hit some event
      on any of `user`'s calendars, other than the excluded one? On
      non-empty intervals this is the half-open overlap. */
  function CheckTimeConflict(st: Store, user: int, s: int, e: int, exclude: Option<int>): (conflict: bool)
    ensures EventsNonEmpty(st.events) && s < e ==>
      (conflict <==> exists i :: 0 <= i < |st.events|
                        && OnUserCalendar(st, user, st.events[i])
                        && !Excludes(exclude, st.events[i].id)
                        && Overlaps(s, e, st.events[i].start, st.events[i].end))
  {
    exists i | 0 <= i < |st.events| ::
      && OnUserCalendar(st, user, st.events[i])
      && ThreeClause(s, e, st.events[i].start, st.events[i].end)
      && !Excludes(exclude, st.events[i].id)
  }

  /** An event that ends exactly at `s`, or starts exactly at `e`, or lies
      entirely outside `[s, e)`, raises no conflict. */
  lemma DisjointEventsNeverConflict(st: Store, user: int, s: int, e: int, exclude: Option<int>)
    requires EventsNonEmpty(st.events) && s < e
    requires forall i :: 0 <= i < |st.events| && OnUserCalendar(st, user, st.events[i]) ==>
               st.events[i].end <= s || e <= st.events[i].start
    ensures !CheckTimeConflict(st, user, s, e, exclude)
  {
  }

  /** A falsy `excludeEventId` excludes nothing. */
  lemma FalsyExcludeIsNoExclude(st: Store, user: int, s: int, e: int)
    ensures CheckTimeConflict(st, user, s, e, Some(0)) == CheckTimeConflict(st, user, s, e, None)
  {
  }

  function WithoutEvent(events: seq<CalendarEvent>, eventId: int): (r: seq<CalendarEvent>)
    ensures forall ev :: ev in r <==> ev in events && ev.id != eventId
  {
    Filter(events, (ev: CalendarEvent) => ev.id != eventId)
  }

  /** A truthy `excludeEventId` removes exactly that event from
      consideration: the answer is the one for the store without it. */
  lemma ExcludeRemovesExactlyThatEvent(st: Store, user: int, s: int, e: int, x: int)
    requires x != 0
    ensures CheckTimeConflict(st, user, s, e, Some(x))
         == CheckTimeConflict(st.(events := WithoutEvent(st.events, x)), user, s, e, None)
  {
    var st' := st.(events := WithoutEvent(st.events, x));
    if CheckTimeConflict(st, user, s, e, Some(x)) {
      var i :| 0 <= i < |st.events|
        && OnUserCalendar(st, user, st.events[i])
        && ThreeClause(s, e, st.events[i].start, st.events[i].end)
        && !Excludes(Some(x), st.events[i].id);
      assert st.events[i] in st.events;
      var k :| 0 <= k < |st'.events| && st'.events[k] == st.events[i];
      assert OnUserCalendar(st', user, st'.events[k]);
    }
    if CheckTimeConflict(st', user, s, e, None) {
      var k :| 0 <= k < |st'.events|
        && OnUserCalendar(st', user, st'.events[k])
        && ThreeClause(s, e, st'.events[k].start, st'.events[k].end);
      assert st'.events[k] in st'.events;
      var i :| 0 <= i < |st.events| && st.events[i] == st'.events[k];
      assert OnUserCalendar(st, user, st.events[i]);
    }
  }

  /** `addEvent`: nothing happens unless `calendarId` is one of `user`'s
      calendars; otherwise exactly one event is appended, carrying the given
      interval and no booking reference. */
  function AddEvent(st: Store, calendarId: int, user: int, title: string, start: int, end: int,
                    description: string): (w: Written<CalendarEvent>)
    ensures !OwnsCalendar(st.calendars, calendarId, user) ==> w == Written(None, st)
    ensures OwnsCalendar(st.calendars, calendarId, user) ==>
      && w.row.Some?
      && w.row.value.calendarId == calendarId
      && w.row.value.start == start && w.row.value.end == end
      && w.row.value.title == title && w.row.value.description == description
      && w.row.value.id == st.nextEventId
      && w.row.value.bookingId.None?
      && w.store == st.(events := st.events + [w.row.value], nextEventId := st.nextEventId + 1)
  {
    if !OwnsCalendar(st.calendars, calendarId, user) then Written(None, st)
    else
      var ev := CalendarEvent(st.nextEventId, calendarId, None, title, start, end, description);
      Written(Some(ev), st.(events := st.events + [ev], nextEventId := st.nextEventId + 1))
  }

  predicate SortedByCreation(cs: seq<Calendar>)
  {
    forall i, j :: 0 <= i < j < |cs| ==> cs[i].createdAt <= cs[j].createdAt
  }

  lemma SortedCons(h: Calendar, rest: seq<Calendar>)
    requires SortedByCreation(rest)
    requires forall x :: x in rest ==> h.createdAt <= x.createdAt
    ensures SortedByCreation([h] + rest)
  {
    var r := [h] + rest;
    forall i, j | 0 <= i < j < |r|
      ensures r[i].createdAt <= r[j].createdAt
    {
      assert r[j] == rest[j - 1];
      if i > 0 {
        assert r[i] == rest[i - 1];
      } else {
        assert rest[j - 1] in rest;
      }
    }
  }

  lemma SameMembers(a: seq<Calendar>, b: seq<Calendar>)
    requires multiset(a) == multiset(b)
    ensures forall x :: x in a <==> x in b
  {
    forall x
      ensures x in a <==> x in b
    {
      assert x in a <==> x in multiset(a);
      assert x in b <==> x in multiset(b);
    }
  }

  lemma SortedHeadIsLeast(cs: seq<Calendar>)
    requires SortedByCreation(cs)
    ensures forall x :: x in cs ==> cs[0].createdAt <= x.createdAt
  {
    forall x | x in cs
      ensures cs[0].createdAt <= x.createdAt
    {
      var j :| 0 <= j < |cs| && cs[j] == x;
    }
  }

  lemma InsertedTailAbove(h: Calendar, c: Calendar, tail: seq<Calendar>, rest: seq<Calendar>)
    requires SortedByCreation([h] + tail)
    requires h.createdAt < c.createdAt
    requires multiset(rest) == multiset(tail) + multiset{c}
    ensures forall x :: x in rest ==> h.createdAt <= x.createdAt
  {
    var cs := [h] + tail;
    forall x | x in rest
      ensures h.createdAt <= x.createdAt
    {
      assert x in multiset(rest);
      if x != c {
        assert x in multiset(tail);
        var j :| 0 <= j < |tail| && tail[j] == x;
        assert cs[0] == h && cs[j + 1] == x;
        assert cs[0].createdAt <= cs[j + 1].createdAt;
      }
    }
  }

  /** Insert before the first calendar created no earlier, so that equal
      creation times keep their table order. */
  function InsertByCreation(c: Calendar, cs: seq<Calendar>): (r: seq<Calendar>)
    requires SortedByCreation(cs)
    ensures SortedByCreation(r)
    ensures multiset(r) == multiset(cs) + multiset{c}
  {
    if cs == [] || c.createdAt <= cs[0].createdAt then
      SortedHeadIsLeast(cs);
      SortedCons(c, cs);
      [c] + cs
    else
      var tail := cs[1..];
      var rest := InsertByCreation(c, tail);
      assert cs == [cs[0]] + tail;
      InsertedTailAbove(cs[0], c, tail, rest);
      SortedCons(cs[0], rest);
      [cs[0]] + rest
  }

  function SortByCreation(cs: seq<Calendar>): (r: seq<Calendar>)
    ensures SortedByCreation(r)
    ensures multiset(r) == multiset(cs)
  {
    if cs == [] then []
    else
      assert cs == [cs[0]] + cs[1..];
      InsertByCreation(cs[0], SortByCreation(cs[1..]))
  }

  /** `findByUserId`: the user's calendars, ordered by creation time. */
  function FindByUserId(st: Store, user: int): (cals: seq<Calendar>)
    ensures SortedByCreation(cals)
    ensures multiset(cals) == multiset(Filter(st.calendars, (c: Calendar) => c.owner == user))
    ensures forall c :: c in cals <==> c in st.calendars && c.owner == user
  {
    var owned := Filter(st.calendars, (c: Calendar) => c.owner == user);
    var cals := SortByCreation(owned);
    SameMembers(cals, owned);
    cals
  }

  /** Every calendar of the user is among `findByUserId`'s. */
  lemma OwnedCalendarListed(st: Store, user: int, k: int)
    requires 0 <= k < |st.calendars| && st.calendars[k].owner == user
    ensures FindByUserId(st, user) != []
  {
    assert st.calendars[k] in FindByUserId(st, user);
  }

  /** A listed calendar is one of the user's. */
  lemma ListedCalendarOwned(st: Store, user: int)
    requires FindByUserId(st, user) != []
    ensures exists k :: 0 <= k < |st.calendars| && st.calendars[k].owner == user
  {
    var c := FindByUserId(st, user)[0];
    assert c in st.calendars && c.owner == user;
    var k :| 0 <= k < |st.calendars| && st.calendars[k] == c;
  }

  /** An approval finds a calendar to write to, `userCalendars[0]`,
      exactly when the user owns some calendar. */
  lemma FirstCalendarExists(st: Store, user: int)
    ensures FindByUserId(st, user) != [] <==> exists k :: 0 <= k < |st.calendars| && st.calendars[k].owner == user
  {
    if exists k :: 0 <= k < |st.calendars| && st.calendars[k].owner == user {
      var k :| 0 <= k < |st.calendars| && st.calendars[k].owner == user;
      OwnedCalendarListed(st, user, k);
    }
    if FindByUserId(st, user) != [] {
      ListedCalendarOwned(st, user);
    }
  }

  /** `userCalendars[0]` is a calendar of the user created no later than any
      other of theirs. */
  lemma FirstCalendarIsEarliest(st: Store, user: int)
    requires FindByUserId(st, user) != []
    ensures FindByUserId(st, user)[0] in st.calendars
    ensures FindByUserId(st, user)[0].owner == user
    ensures forall c :: c in st.calendars && c.owner == user ==> FindByUserId(st, user)[0].createdAt <= c.createdAt
  {
    var cals := FindByUserId(st, user);
    assert cals[0] in cals;
    SortedHeadIsLeast(cals);
  }

  /** `create`: appends one calendar of `user`, stamped `now`. */
  function CreateCalendar(st: Store, user: int, name: string, description: string, now: int): (w: Written<Calendar>)
    ensures w.row.Some? && w.row.value.owner == user && w.row.value.id == st.nextCalendarId
    ensures w.row.value.name == name && w.row.value.description == description && w.row.value.createdAt == now
    ensures w.store == st.(calendars := st.calendars + [w.row.value], nextCalendarId := st.nextCalendarId + 1)
  {
    var c := Calendar(st.nextCalendarId, user, name, description, now);
    Written(Some(c), st.(calendars := st.calendars + [c], nextCalendarId := st.nextCalendarId + 1))
  }

  predicate IsCalendarOf(c: Calendar, id: int, user: int)
  {
    c.id == id && c.owner == user
  }

  /** `update`: renames every calendar row with this id owned by `user`;
      none matching answers null and changes nothing. Ids and owners never
      change. */
  function UpdateCalendar(st: Store, id: int, user: int, name: string, description: string): (w: Written<Calendar>)
    ensures w.row.None? <==> !OwnsCalendar(st.calendars, id, user)
    ensures w.row.None? ==> w.store == st
    ensures w.row.Some? ==> w.row.value.id == id && w.row.value.owner == user
                            && w.row.value.name == name && w.row.value.description == description
    ensures w.store == st.(calendars := w.store.calendars)
    ensures |w.store.calendars| == |st.calendars|
    ensures forall k :: 0 <= k < |st.calendars| ==>
      w.store.calendars[k] == if IsCalendarOf(st.calendars[k], id, user)
                              then st.calendars[k].(name := name, description := description)
                              else st.calendars[k]
    ensures forall k :: 0 <= k < |st.calendars| ==>
      && w.store.calendars[k].id == st.calendars[k].id
      && w.store.calendars[k].owner == st.calendars[k].owner
      && w.store.calendars[k].createdAt == st.calendars[k].createdAt
  {
    var p := (c: Calendar) => IsCalendarOf(c, id, user);
    match First(st.calendars, p)
    case None => Written(None, st)
    case Some(c) =>
      var f := (c: Calendar) => c.(name := name, description := description);
      Written(Some(f(c)), st.(calendars := UpdateWhere(st.calendars, p, f)))
  }
}

=== FILE: calendar_routes.dfy ===
/** The calendar routes that validate or write (backend/routes/calendar.ts):
    create and rename a calendar, and add a manual event. */
module CalendarRoutes {
  import opened Types
  import opened Overlap
  import opened Http
  import opened CalendarModel
  import opened StoreInvariant

  /** The JSON body of a calendar create or update. */
  datatype CalendarRequest = CalendarRequest(name: string, description: string)

  /** The JSON body of a manual event. */
  datatype EventRequest = EventRequest(title: string, startTime: TimeField, endTime: TimeField, description: string)

  /** `POST /calendars`: a name is required; the store stamps `now`. */
  function PostCalendar(st: Store, user: int, req: CalendarRequest, now: int): (r: Reply<Calendar>)
    ensures FollowsChain(r.result, [Check(req.name != [], MissingField)])
    ensures r.result.Err? ==> r.store == st
    ensures r.result.Ok? ==>
      && r.result.code == 201
      && r.result.value.owner == user && r.result.value.name == req.name
      && r.result.value.description == req.description
      && r.result.value.id == st.nextCalendarId && r.result.value.createdAt == now
      && r.store == st.(calendars := st.calendars + [r.result.value], nextCalendarId := st.nextCalendarId + 1)
    ensures Valid(st) ==> Valid(r.store)
  {
    if req.name == [] then Reply(Err(MissingField), st)
    else
      var w := CreateCalendar(st, user, req.name, req.description, now);
      assert Valid(st) ==> Valid(w.store) by { if Valid(st) { NewCalendarKeepsValid(st, user, req.name, req.description, now); } }
      Reply(Ok(201, w.row.value), w.store)
  }

  function PutCalendarChecks(st: Store, user: int, id: NumParam, req: CalendarRequest): (checks: seq<Check>)
  {
    [ Check(id.Num?, InvalidId),
      Check(req.name != [], MissingField),
      Check(id.Num? && OwnsCalendar(st.calendars, id.n, user), NotFound) ]
  }

  /** `PUT /calendars/:id`: the id guard, the name guard, then the
      ownership-scoped rename. */
  function PutCalendar(st: Store, user: int, id: NumParam, req: CalendarRequest): (r: Reply<Calendar>)
    ensures FollowsChain(r.result, PutCalendarChecks(st, user, id, req))
    ensures r.result.Err? ==> r.store == st
    ensures r.result.Ok? ==>
      && r.result.code == 200 && id.Num?
      && r.result.value.id == id.n && r.result.value.owner == user
      && r.result.value.name == req.name && r.result.value.description == req.description
      && |r.store.calendars| == |st.calendars|
      && (forall k :: 0 <= k < |st.calendars| ==>
            r.store.calendars[k] == if IsCalendarOf(st.calendars[k], id.n, user)
                                    then st.calendars[k].(name := req.name, description := req.description)
                                    else st.calendars[k])
      && r.store == st.(calendars := r.store.calendars)
    ensures Valid(st) ==> Valid(r.store)
  {
    var checks := PutCalendarChecks(st, user, id, req);
    match id
    case NaN => Reply(Err(InvalidId), st)
    case Num(n) =>
      if req.name == [] then
        assert checks[0].passes && !checks[1].passes;
        Reply(Err(MissingField), st)
      else
        var w := UpdateCalendar(st, n, user, req.name, req.description);
        if w.row.None? then
          assert checks[0].passes && checks[1].passes && !checks[2].passes;
          Reply(Err(NotFound), st)
        else
          assert Valid(st) ==> Valid(w.store) by { if Valid(st) { RenamedCalendarsKeepValid(st, w.store); } }
          Reply(Ok(200, w.row.value), w.store)
  }

  /** The guards of `POST /calendars/:id/events`, in source order. Each is
      stated so that it is meaningful once the earlier ones pass. Note that
      the conflict guard comes before the ownership guard. */
  function PostEventChecks(st: Store, user: int, id: NumParam, req: EventRequest): (checks: seq<Check>)
  {
    var both := req.startTime.At? && req.endTime.At?;
    [ Check(id.Num?, InvalidId),
      Check(req.title != [] && !req.startTime.Blank? && !req.endTime.Blank?, MissingField),
      Check(!req.startTime.Garbled? && !req.endTime.Garbled?, InvalidDate),
      Check(!(both && req.startTime.ms >= req.endTime.ms), StartNotBeforeEnd),
      Check(!(both && CheckTimeConflict(st, user, req.startTime.ms, req.endTime.ms, None)), TimeConflict),
      Check(id.Num? && OwnsCalendar(st.calendars, id.n, user), NotFound) ]
  }

  /** `POST /calendars/:id/events`. A created event is non-empty, lies on a
      calendar of the caller, and overlaps none of the caller's events. */
  function PostEvent(st: Store, user: int, id: NumParam, req: EventRequest): (r: Reply<CalendarEvent>)
    ensures r.result.Err? ==> r.store == st
    ensures r.result.Ok? ==>
      && r.result.code == 201 && id.Num?
      && req.startTime.At? && req.endTime.At?
      && r.result.value.start == req.startTime.ms && r.result.value.end == req.endTime.ms
      && r.result.value.start < r.result.value.end
      && r.result.value.title == req.title && r.result.value.description == req.description
      && r.result.value.calendarId == id.n && OwnsCalendar(st.calendars, id.n, user)
      && r.result.value.bookingId.None?
      && r.store == st.(events := st.events + [r.result.value], nextEventId := st.nextEventId + 1)
    ensures r.result.Ok? && EventsNonEmpty(st.events) ==>
      forall i :: 0 <= i < |st.events| && OnUserCalendar(st, user, st.events[i]) ==>
        !Overlaps(r.result.value.start, r.result.value.end, st.events[i].start, st.events[i].end)
    ensures Valid(st) ==> Valid(r.store)
  {
    match id
    case NaN => Reply(Err(InvalidId), st)
    case Num(n) =>
      if req.title == [] || req.startTime.Blank? || req.endTime.Blank? then Reply(Err(MissingField), st)
      else if req.startTime.Garbled? || req.endTime.Garbled? then Reply(Err(InvalidDate), st)
      else
        var s := req.startTime.ms;
        var e := req.endTime.ms;
        if s >= e then Reply(Err(StartNotBeforeEnd), st)
        else if CheckTimeConflict(st, user, s, e, None) then Reply(Err(TimeConflict), st)
        else
          var w := AddEvent(st, n, user, req.title, s, e, req.description);
          if w.row.None? then Reply(Err(NotFound), st)
          else
            assert Valid(st) ==> Valid(w.store) by { if Valid(st) { ClearedEventKeepsValid(st, n, user, req.title, s, e, req.description); } }
            Reply(Ok(201, w.row.value), w.store)
  }

  /** Event creation answers with the first failing guard of its chain, in
      source order, and succeeds exactly when every guard passes. */
  lemma {:induction false} PostEventFollowsChain(st: Store, user: int, id: NumParam, req: EventRequest)
    ensures FollowsChain(PostEvent(st, user, id, req).result, PostEventChecks(st, user, id, req))
  {
    var checks := PostEventChecks(st, user, id, req);
    if id.NaN? {
    } else if req.title == [] || req.startTime.Blank? || req.endTime.Blank? {
      assert checks[0].passes && !checks[1].passes;
    } else if req.startTime.Garbled? || req.endTime.Garbled? {
      assert checks[0].passes && checks[1].passes && !checks[2].passes;
    } else {
      var s := req.startTime.ms;
      var e := req.endTime.ms;
      assert checks[0].passes && checks[1].passes && checks[2].passes;
      if s >= e {
        assert !checks[3].passes;
      } else if CheckTimeConflict(st, user, s, e, None) {
        assert checks[3].passes && !checks[4].passes;
      } else if !OwnsCalendar(st.calendars, id.n, user) {
        assert checks[3].passes && checks[4].passes && !checks[5].passes;
      } else {
        assert forall k :: 0 <= k < |checks| ==> checks[k].passes;
      }
    }
  }

  /** The conflict guard runs before the ownership guard: a clashing
      interval is answered with 409 even when the calendar is not the
      caller's, and only a clear interval reaches the 404. */
  lemma ConflictBeforeOwnership(st: Store, user: int, n: int, title: string, s: int, e: int, description: string)
    requires title != [] && s < e
    requires !OwnsCalendar(st.calendars, n, user)
    ensures var r := PostEvent(st, user, Num(n), EventRequest(title, At(s), At(e), description));
      r.result == (if CheckTimeConflict(st, user, s, e, None) then Err(TimeConflict) else Err(NotFound))
  {
  }
}

=== FILE: email.dfy ===
/** The booking route's email check, `^[^\s@]+@[^\s@]+\.[^\s@]+$`
    (backend/routes/bookings.ts:86), given twice: as the pattern's meaning
    and as a left-to-right scan, proved equal. */
module Email {
  import opened Types

  /** The characters JavaScript's `\s` matches. */
  predicate IsJsSpace(c: char)
  {
    var n := c as int;
    || (9 <= n <= 13) || n == 32 || n == 0xA0 || n == 0x1680
    || (0x2000 <= n <= 0x200A) || n == 0x2028 || n == 0x2029
    || n == 0x202F || n == 0x205F || n == 0x3000 || n == 0xFEFF
  }

  /** A character of the class `[^\s@]`. */
  predicate Plain(c: char)
  {
    c != '@' && !IsJsSpace(c)
  }

  predicate AllPlain(s: string)
  {
    forall i :: 0 <= i < |s| ==> Plain(s[i])
  }

  /** What the pattern accepts: `s` splits as `a @ b . c` with `a`, `b`
      and `c` non-empty runs of characters from `[^\s@]`. */
  ghost predicate MatchesPattern(s: string)
  {
    exists at, dot ::
      && 0 < at && at + 1 < dot && dot + 1 < |s|
      && s[at] == '@' && s[dot] == '.'
      && AllPlain(s[..at]) && AllPlain(s[at + 1..dot]) && AllPlain(s[dot + 1..])
  }

  /** Position of the first `@`, if any. */
  function FirstAt(s: string): (r: Option<nat>)
    ensures r.Some? ==> r.value < |s| && s[r.value] == '@'
    ensures r.Some? ==> forall k :: 0 <= k < r.value ==> s[k] != '@'
    ensures r.None? ==> forall k :: 0 <= k < |s| ==> s[k] != '@'
  {
    if s == [] then None
    else if s[0] == '@' then Some(0)
    else match FirstAt(s[1..])
      case None => None
      case Some(i) => Some(i + 1)
  }

  /** The scan: split at the first `@`; both sides must be plain and the
      domain must carry a `.` that is neither its first nor its last
      character. */
  function ValidEmail(s: string): bool
  {
    match FirstAt(s)
    case None => false
    case Some(at) =>
      && 0 < at && at + 3 <= |s|
      && AllPlain(s[..at]) && AllPlain(s[at + 1..])
      && '.' in s[at + 2..|s| - 1]
  }

  lemma AllPlainSlice(s: string, i: int, j: int)
    requires AllPlain(s) && 0 <= i <= j <= |s|
    ensures AllPlain(s[i..j])
  {
    forall k | 0 <= k < j - i
      ensures Plain(s[i..j][k])
    {
      assert s[i..j][k] == s[i + k];
    }
  }

  lemma ScanImpliesPattern(s: string)
    requires ValidEmail(s)
    ensures MatchesPattern(s)
  {
    var at := FirstAt(s).value;
    var dom := s[at + 2..|s| - 1];
    var k :| 0 <= k < |dom| && dom[k] == '.';
    var dot := at + 2 + k;
    var tail := s[at + 1..];
    assert s[dot] == '.';
    assert tail[..dot - at - 1] == s[at + 1..dot];
    assert tail[dot - at..] == s[dot + 1..];
    AllPlainSlice(tail, 0, dot - at - 1);
    AllPlainSlice(tail, dot - at, |tail|);
  }

  lemma AllPlainAround(a: string, c: char, b: string)
    requires AllPlain(a) && Plain(c) && AllPlain(b)
    ensures AllPlain(a + [c] + b)
  {
    var s := a + [c] + b;
    forall k | 0 <= k < |s|
      ensures Plain(s[k])
    {
      if k > |a| {
        assert s[k] == b[k - |a| - 1];
      }
    }
  }

  lemma FirstAtIs(s: string, at: int)
    requires 0 <= at < |s| && s[at] == '@' && AllPlain(s[..at])
    ensures FirstAt(s) == Some(at)
  {
    forall k | 0 <= k < at
      ensures s[k] != '@'
    {
      assert s[..at][k] == s[k];
    }
  }

  lemma SplitImpliesScan(s: string, at: int, dot: int)
    requires 0 < at && at + 1 < dot && dot + 1 < |s|
    requires s[at] == '@' && s[dot] == '.'
    requires AllPlain(s[..at]) && AllPlain(s[at + 1..dot]) && AllPlain(s[dot + 1..])
    ensures ValidEmail(s)
  {
    FirstAtIs(s, at);
    assert AllPlain(s[at + 1..]) by {
      assert s[at + 1..] == s[at + 1..dot] + [s[dot]] + s[dot + 1..];
      AllPlainAround(s[at + 1..dot], '.', s[dot + 1..]);
    }
    assert s[at + 2..|s| - 1][dot - at - 2] == '.';
  }

  lemma PatternImpliesScan(s: string)
    requires MatchesPattern(s)
    ensures ValidEmail(s)
  {
    var at, dot :|
      && 0 < at && at + 1 < dot && dot + 1 < |s|
      && s[at] == '@' && s[dot] == '.'
      && AllPlain(s[..at]) && AllPlain(s[at + 1..dot]) && AllPlain(s[dot + 1..]);
    SplitImpliesScan(s, at, dot);
  }

  /** The scan accepts exactly the strings the pattern matches. */
  lemma ValidEmailIffPattern(s: string)
    ensures ValidEmail(s) <==> MatchesPattern(s)
  {
    if ValidEmail(s) {
      ScanImpliesPattern(s);
    }
    if MatchesPattern(s) {
      PatternImpliesScan(s);
    }
  }
}

=== FILE: http.dfy ===
/** Request inputs as the route handlers see them, and the status codes they
    answer with. Response bodies are reduced to the row they carry. */
module Http {
  import opened Types

  /** A path parameter after `Number(...)`: either NaN or a number. */
  datatype NumParam = NaN | Num(n: int)

  /** A date-time string field after `new Date(...)`: `Blank` when the field
      is missing or empty (falsy), `Garbled` when it is present but gives an
      invalid date, `At` with the parsed instant otherwise. */
  datatype TimeField = Blank | Garbled | At(ms: int)

  /** The error responses of the routes, one per distinct reason. */
  datatype Fault =
    | InvalidId            // 400: path id is NaN
    | LinkRequired         // 400: empty public link
    | MissingField         // 400: a required body field is falsy
    | ContactRequired      // 400: neither email nor phone
    | InvalidEmail         // 400: email does not match the pattern
    | InvalidDate          // 400: a date field does not parse
    | PastStart            // 400: booking start not after now
    | StartNotBeforeEnd    // 400: event start >= end
    | DurationOutOfRange   // 400: duration outside 1..480
    | Unauthorized         // 403: session type not owned by the caller
    | NotFound             // 404
    | TimeConflict         // 409

  function FaultCode(f: Fault): (code: int)
    ensures code in {400, 403, 404, 409}
    ensures code == 403 <==> f == Unauthorized
    ensures code == 404 <==> f == NotFound
    ensures code == 409 <==> f == TimeConflict
  {
    match f
    case Unauthorized => 403
    case NotFound => 404
    case TimeConflict => 409
    case _ => 400
  }

  datatype Result<T> = Ok(code: int, value: T) | Err(fault: Fault)
  {
    function Status(): int
    {
      match this
      case Ok(code, _) => code
      case Err(f) => FaultCode(f)
    }
  }

  /** What a handler answers and the store it leaves behind. */
  datatype Reply<T> = Reply(result: Result<T>, store: Store)

  /** One early-return guard of a handler: whether it passes, and the
      error it answers with when it does not. */
  datatype Check = Check(passes: bool, fault: Fault)

  /** The error an ordered chain of guards answers with: that of the first
      failing guard, or none when all pass. */
  function FirstFailure(checks: seq<Check>): (r: Option<Fault>)
    ensures r.None? <==> forall k :: 0 <= k < |checks| ==> checks[k].passes
    ensures r.Some? ==> exists k :: 0 <= k < |checks| && !checks[k].passes && checks[k].fault == r.value
                                    && forall m :: 0 <= m < k ==> checks[m].passes
    ensures forall k :: 0 <= k < |checks| && !checks[k].passes && (forall m :: 0 <= m < k ==> checks[m].passes) ==>
                        r == Some(checks[k].fault)
  {
    if checks == [] then None
    else if !checks[0].passes then Some(checks[0].fault)
    else
      var r := FirstFailure(checks[1..]);
      assert forall k :: 1 <= k < |checks| ==> checks[k] == checks[1..][k - 1];
      r
  }

  /** Guards that all pass ahead of the rest do not change the verdict. */
  lemma {:induction false} PassingPrefix(checks: seq<Check>, n: nat)
    requires n <= |checks|
    requires forall k :: 0 <= k < n ==> checks[k].passes
    ensures FirstFailure(checks) == FirstFailure(checks[n..])
  {
    if n > 0 {
      assert checks[1..][n - 1..] == checks[n..];
      PassingPrefix(checks[1..], n - 1);
    }
  }

  /** A handler's reply follows its guard chain: it fails with the first
      failing guard's error, and succeeds only when every guard passes. */
  predicate FollowsChain<T>(result: Result<T>, checks: seq<Check>)
  {
    match FirstFailure(checks)
    case Some(f) => result == Err(f)
    case None => result.Ok?
  }
}

=== FILE: invariant.dfy ===
/** What the route handlers together keep true of the store: session
    durations in range, events non-empty, calendar ids unique and issued by
    the counter, and no two events of one provider overlapping. The
    half-open readings of both conflict queries rest on the first two. */
module StoreInvariant {
  import opened Types
  import opened Overlap
  import opened CalendarModel
  import opened SessionTypeModel

  /** Every session type lasts 1 to 480 minutes, and its id is unique and
      was issued by the counter. */
  ghost predicate SessionTypesValid(types: seq<SessionType>, nextSessionTypeId: int)
  {
    && (forall t :: t in types ==> 1 <= t.durationMinutes <= MaxSessionMinutes)
    && (forall t :: t in types ==> t.id < nextSessionTypeId)
    && (forall a, b :: a in types && b in types && a.id == b.id ==> a == b)
  }

  /** Calendar ids are distinct and below the counter, and every event
      points below the counter too, so a new calendar owns no old event. */
  predicate CalendarIdsFresh(cals: seq<Calendar>, events: seq<CalendarEvent>, nextCalendarId: int)
  {
    && (forall k :: 0 <= k < |cals| ==> cals[k].id < nextCalendarId)
    && (forall k, m :: 0 <= k < m < |cals| ==> cals[k].id != cals[m].id)
    && (forall i :: 0 <= i < |events| ==> events[i].calendarId < nextCalendarId)
  }

  /** Two events on calendars of the same user never overlap. */
  ghost predicate EventsDisjoint(cals: seq<Calendar>, events: seq<CalendarEvent>)
  {
    forall i, j, u ::
      (0 <= i < |events| && 0 <= j < |events| && i != j
       && OwnsCalendar(cals, events[i].calendarId, u) && OwnsCalendar(cals, events[j].calendarId, u)) ==>
      !Overlaps(events[i].start, events[i].end, events[j].start, events[j].end)
  }

  ghost predicate Valid(st: Store)
  {
    && SessionTypesValid(st.sessionTypes, st.nextSessionTypeId)
    && EventsNonEmpty(st.events)
    && CalendarIdsFresh(st.calendars, st.events, st.nextCalendarId)
    && EventsDisjoint(st.calendars, st.events)
  }

  /** With distinct ids a calendar has one owner. */
  lemma OwnerIsUnique(cals: seq<Calendar>, events: seq<CalendarEvent>, next: int, id: int, u: int, v: int)
    requires CalendarIdsFresh(cals, events, next)
    requires OwnsCalendar(cals, id, u) && OwnsCalendar(cals, id, v)
    ensures u == v
  {
    var k :| 0 <= k < |cals| && cals[k].id == id && cals[k].owner == u;
    var m :| 0 <= m < |cals| && cals[m].id == id && cals[m].owner == v;
  }

  /** Inserting a non-empty event on a calendar of `user` that the conflict
      query clears keeps the store valid. */
  lemma {:induction false} ClearedEventKeepsValid(st: Store, calendarId: int, user: int, title: string,
                                                  start: int, end: int, description: string)
    requires Valid(st)
    requires start < end
    requires !CheckTimeConflict(st, user, start, end, None)
    ensures Valid(AddEvent(st, calendarId, user, title, start, end, description).store)
  {
    var w := AddEvent(st, calendarId, user, title, start, end, description);
    if OwnsCalendar(st.calendars, calendarId, user) {
      var evs := w.store.events;
      var n := |st.events|;
      var ev := w.row.value;
      assert evs == st.events + [ev];
      assert CalendarIdsFresh(st.calendars, evs, st.nextCalendarId) by {
        var k :| 0 <= k < |st.calendars| && st.calendars[k].id == calendarId && st.calendars[k].owner == user;
        forall i | 0 <= i < |evs|
          ensures evs[i].calendarId < st.nextCalendarId
        {
          if i < n {
            assert evs[i] == st.events[i];
          }
        }
      }
      assert forall j :: 0 <= j < n && OnUserCalendar(st, user, st.events[j]) ==>
        !Overlaps(start, end, st.events[j].start, st.events[j].end);
      AppendedEventKeepsDisjoint(st.calendars, st.events, st.nextCalendarId, ev, user);
    }
  }

  /** Appending an event on a calendar of `user` that overlaps none of that
      user's events keeps the events disjoint. */
  lemma {:induction false} AppendedEventKeepsDisjoint(cals: seq<Calendar>, events: seq<CalendarEvent>, next: int,
                                                      ev: CalendarEvent, user: int)
    requires CalendarIdsFresh(cals, events, next) && EventsDisjoint(cals, events)
    requires OwnsCalendar(cals, ev.calendarId, user)
    requires forall j :: 0 <= j < |events| && OwnsCalendar(cals, events[j].calendarId, user) ==>
      !Overlaps(ev.start, ev.end, events[j].start, events[j].end)
    ensures EventsDisjoint(cals, events + [ev])
  {
    var evs := events + [ev];
    var n := |events|;
    forall i, j, u | 0 <= i < |evs| && 0 <= j < |evs| && i != j
      && OwnsCalendar(cals, evs[i].calendarId, u) && OwnsCalendar(cals, evs[j].calendarId, u)
      ensures !Overlaps(evs[i].start, evs[i].end, evs[j].start, evs[j].end)
    {
      if i < n && j < n {
        assert evs[i] == events[i] && evs[j] == events[j];
      } else if i == n {
        assert evs[j] == events[j];
        OwnerIsUnique(cals, events, next, ev.calendarId, u, user);
        assert !Overlaps(ev.start, ev.end, events[j].start, events[j].end);
      } else {
        assert evs[i] == events[i];
        OwnerIsUnique(cals, events, next, ev.calendarId, u, user);
        assert !Overlaps(ev.start, ev.end, events[i].start, events[i].end);
      }
    }
  }

  /** A new calendar takes a fresh id and so owns no existing event. */
  lemma {:induction false} NewCalendarKeepsValid(st: Store, user: int, name: string, description: string, now: int)
    requires Valid(st)
    ensures Valid(CreateCalendar(st, user, name, description, now).store)
  {
    var st' := CreateCalendar(st, user, name, description, now).store;
    var c := CreateCalendar(st, user, name, description, now).row.value;
    var cals := st'.calendars;
    var n := |st.calendars|;
    assert cals == st.calendars + [c];
    assert CalendarIdsFresh(cals, st.events, st'.nextCalendarId) by {
      forall k, m | 0 <= k < m < |cals|
        ensures cals[k].id != cals[m].id
      {
        if m < n {
          assert cals[k] == st.calendars[k] && cals[m] == st.calendars[m];
        } else {
          assert cals[k] == st.calendars[k];
        }
      }
      forall k | 0 <= k < |cals|
        ensures cals[k].id < st'.nextCalendarId
      {
        if k < n {
          assert cals[k] == st.calendars[k];
        }
      }
    }
    forall id, u | id < st.nextCalendarId && OwnsCalendar(cals, id, u)
      ensures OwnsCalendar(st.calendars, id, u)
    {
      var k :| 0 <= k < |cals| && cals[k].id == id && cals[k].owner == u;
      assert k < n;
      assert cals[k] == st.calendars[k];
    }
    assert forall i :: 0 <= i < |st.events| ==> st.events[i].calendarId < st.nextCalendarId;
  }

  /** Renaming keeps every calendar's id and owner, hence all ownership. */
  lemma {:induction false} RenamedCalendarsKeepValid(st: Store, st': Store)
    requires Valid(st)
    requires st' == st.(calendars := st'.calendars)
    requires |st'.calendars| == |st.calendars|
    requires forall k :: 0 <= k < |st.calendars| ==>
               st'.calendars[k].id == st.calendars[k].id && st'.calendars[k].owner == st.calendars[k].owner
    ensures Valid(st')
  {
    forall id, u
      ensures OwnsCalendar(st'.calendars, id, u) <==> OwnsCalendar(st.calendars, id, u)
    {
      if OwnsCalendar(st'.calendars, id, u) {
        var k :| 0 <= k < |st'.calendars| && st'.calendars[k].id == id && st'.calendars[k].owner == u;
        assert st.calendars[k].id == id && st.calendars[k].owner == u;
      }
      if OwnsCalendar(st.calendars, id, u) {
        var k :| 0 <= k < |st.calendars| && st.calendars[k].id == id && st.calendars[k].owner == u;
        assert st'.calendars[k].id == id && st'.calendars[k].owner == u;
      }
    }
    assert CalendarIdsFresh(st'.calendars, st'.events, st'.nextCalendarId) by {
      forall k, m | 0 <= k < m < |st'.calendars|
        ensures st'.calendars[k].id != st'.calendars[m].id
      {
        assert st.calendars[k].id != st.calendars[m].id;
      }
    }
  }

  /** A new session type with an allowed duration takes a fresh id. */
  lemma NewTypeKeepsValid(st: Store, owner: int, name: string, minutes: int, link: string)
    requires Valid(st)
    requires 1 <= minutes <= MaxSessionMinutes
    ensures Valid(Create(st, owner, name, minutes, link).store)
  {
  }

  /** Renaming and retiming the rows `IsTypeOf(_, id, owner)` selects, to an
      allowed duration, keeps every id, hence the table valid. */
  lemma {:induction false} RetypedTypesValid(old_: seq<SessionType>, new_: seq<SessionType>, next: int,
                                             id: int, owner: int, name: string, minutes: int)
    requires SessionTypesValid(old_, next)
    requires 1 <= minutes <= MaxSessionMinutes
    requires |new_| == |old_|
    requires forall j :: 0 <= j < |old_| ==>
      new_[j] == if IsTypeOf(old_[j], id, owner) then old_[j].(name := name, durationMinutes := minutes) else old_[j]
    ensures SessionTypesValid(new_, next)
  {
    forall a | a in new_
      ensures 1 <= a.durationMinutes <= MaxSessionMinutes && a.id < next
      ensures exists j :: 0 <= j < |old_| && new_[j] == a && old_[j].id == a.id
    {
      var j :| 0 <= j < |new_| && new_[j] == a;
      assert old_[j] in old_;
    }
    forall a, b | a in new_ && b in new_ && a.id == b.id
      ensures a == b
    {
      var j :| 0 <= j < |old_| && new_[j] == a && old_[j].id == a.id;
      var k :| 0 <= k < |old_| && new_[k] == b && old_[k].id == b.id;
      assert old_[j] in old_ && old_[k] in old_;
      assert old_[j] == old_[k];
    }
  }

  /** Changing name and duration, to an allowed duration, keeps every id. */
  lemma RetypedKeepsValid(st: Store, id: int, owner: int, name: string, minutes: int)
    requires Valid(st)
    requires 1 <= minutes <= MaxSessionMinutes
    ensures Valid(Update(st, id, owner, name, minutes).store)
  {
    var w := Update(st, id, owner, name, minutes);
    RetypedTypesValid(st.sessionTypes, w.store.sessionTypes, st.nextSessionTypeId, id, owner, name, minutes);
  }

  /** Removing session types keeps the rest as they were. */
  lemma DeletedTypeKeepsValid(st: Store, id: int, owner: int)
    requires Valid(st)
    ensures Valid(Delete(st, id, owner).1)
  {
  }
}

=== FILE: overlap.dfy ===
/** The interval-conflict test shared by the whole engine.

    The source spells the test three times: in SQL for new bookings
    (backend/models/Booking.ts:82-84), in TypeScript for slot filtering
    (backend/models/Booking.ts:144-146 and 156-158) and in SQL for calendar
    events (backend/models/Calendar.ts:136-138). All three, with the candidate
    interval `[s, e)` and the stored interval `[bs, be)`, are the same
    disjunction: the candidate starts inside the stored interval, or ends
    inside it, or covers it. */
module Overlap {

  /** Half-open overlap of `[a0, a1)` and `[b0, b1)`: touching endpoints do
      not overlap. */
  predicate Overlaps(a0: int, a1: int, b0: int, b1: int)
  {
    a0 < b1 && b0 < a1
  }

  /** The three-clause test as written at the three call sites. On non-empty
      intervals it is exactly the half-open overlap. */
  function ThreeClause(s: int, e: int, bs: int, be: int): (hit: bool)
    ensures s < e && bs < be ==> (hit <==> Overlaps(s, e, bs, be))
  {
    || (bs <= s && be > s)
    || (bs < e && be >= e)
    || (bs >= s && be <= e)
  }

  lemma OverlapsSymmetric(a0: int, a1: int, b0: int, b1: int)
    ensures Overlaps(a0, a1, b0, b1) <==> Overlaps(b0, b1, a0, a1)
  {
  }

  /** On non-empty intervals the source's test does not depend on which
      interval is the candidate. */
  lemma ThreeClauseSymmetric(s: int, e: int, bs: int, be: int)
    requires s < e && bs < be
    ensures ThreeClause(s, e, bs, be) <==> ThreeClause(bs, be, s, e)
  {
    OverlapsSymmetric(s, e, bs, be);
  }

  /** A stored interval that ends exactly where the candidate starts, or
      starts exactly where it ends, is no conflict. */
  lemma TouchingNeverConflicts(s: int, e: int, x: int)
    requires s < e
    ensures x < s ==> !ThreeClause(s, e, x, s)
    ensures e < x ==> !ThreeClause(s, e, e, x)
  {
  }

  /** Non-emptiness is needed: an empty stored interval at the candidate's
      start counts as a hit for the source's test, but overlaps nothing. */
  lemma EmptyIntervalIsHitButNoOverlap()
    ensures ThreeClause(0, 10, 0, 0)
    ensures !Overlaps(0, 10, 0, 0)
  {
  }
}

=== FILE: rows.dfy ===
/** Table access as the SQL statements perform it: a lookup returns the
    first matching row (`rows[0] || null`), a filter keeps the matching rows
    in table order, and `UPDATE ... WHERE` rewrites every matching row. */
module Rows {
  import opened Types

  function First<T>(s: seq<T>, p: T -> bool): (r: Option<T>)
    ensures r.None? <==> forall k :: 0 <= k < |s| ==> !p(s[k])
    ensures r.Some? ==> exists k :: 0 <= k < |s| && s[k] == r.value && p(s[k])
                                    && forall m :: 0 <= m < k ==> !p(s[m])
  {
    if s == [] then None
    else if p(s[0]) then Some(s[0])
    else
      var r := First(s[1..], p);
      assert forall k :: 1 <= k < |s| ==> s[k] == s[1..][k - 1];
      r
  }

  function Filter<T(!new)>(s: seq<T>, p: T -> bool): (r: seq<T>)
    ensures forall x :: x in r <==> x in s && p(x)
    ensures |r| <= |s|
  {
    if s == [] then []
    else (if p(s[0]) then [s[0]] else []) + Filter(s[1..], p)
  }

  /** A filter keeps every copy of a row it selects and no copy of any
      other: `DELETE ... WHERE` neither duplicates nor merges rows. */
  lemma {:induction false} FilterCounts<T(!new)>(s: seq<T>, p: T -> bool)
    ensures forall x :: multiset(Filter(s, p))[x] == if p(x) then multiset(s)[x] else 0
  {
    if s != [] {
      FilterCounts(s[1..], p);
      assert s == [s[0]] + s[1..];
    }
  }

  function UpdateWhere<T>(s: seq<T>, p: T -> bool, f: T -> T): (r: seq<T>)
    ensures |r| == |s|
    ensures forall k :: 0 <= k < |s| ==> r[k] == if p(s[k]) then f(s[k]) else s[k]
  {
    if s == [] then []
    else [if p(s[0]) then f(s[0]) else s[0]] + UpdateWhere(s[1..], p, f)
  }

  /** The `f`-images of the rows satisfying `p`, in table order: a `SELECT`
      of some columns `WHERE p`. */
  function FilterMap<T, U(!new)>(s: seq<T>, p: T -> bool, f: T -> U): (r: seq<U>)
    ensures forall y :: y in r <==> exists k :: 0 <= k < |s| && p(s[k]) && f(s[k]) == y
  {
    if s == [] then []
    else
      var rest := FilterMap(s[1..], p, f);
      assert forall k :: 1 <= k < |s| ==> s[k] == s[1..][k - 1];
      (if p(s[0]) then [f(s[0])] else []) + rest
  }
}

=== FILE: scenarios.dfy ===
/** Worked scenarios on small concrete stores: the documented behaviours of
    the booking flow, the mismatch between the slot filter and the create
    gate, and how approve can revive a rejected booking into a double
    booking. All instants fall on one day. */
module Scenarios {
  import opened Types
  import opened Overlap
  import opened Slots
  import opened Http
  import opened CalendarModel
  import opened BookingModel
  import opened SessionTypeModel
  import opened BookingRoutes

  /** The day every scenario takes place on, counted from the epoch. */
  const Day: int := 20000

  /** hh:mm on that day. */
  function Clock(h: int, m: int): int
  {
    Day * MsPerDay + (h * 60 + m) * MsPerMinute
  }

  const Provider: int := 7

  /** A 30-minute session type of `Provider`, linked as "intro". */
  const Intro: SessionType := SessionType(1, Provider, "Intro", 30, "intro")

  function Invitee(id: int, typeId: int, start: int, status: BookingStatus): Booking
  {
    Booking(id, typeId, "Ann", "Lee", "", "555-0100", start, status)
  }

  function Request(start: int): BookingRequest
  {
    BookingRequest("Ann", "Lee", "", "555-0100", At(start))
  }

  function StoreOf(types: seq<SessionType>, cals: seq<Calendar>, events: seq<CalendarEvent>,
                   bookings: seq<Booking>): Store
  {
    Store(types, cals, events, bookings, 10, 10, 10, 10)
  }

  lemma DayOfClock(h: int, m: int)
    requires 0 <= h < 24 && 0 <= m < 60
    ensures DayOf(Clock(h, m)) == Day && WindowStart(Clock(h, m)) == Clock(9, 0)
  {
  }

  /** With one booking and no events, a candidate is offered unless that
      booking, measured with the requested duration, is in its way. */
  lemma SlotWithOneBooking(st: Store, typeId: int, date: int, k: int)
    requires FindSessionType(st, typeId).Some? && FindSessionType(st, typeId).value.durationMinutes > 0
    requires |st.events| == 0 && |st.bookings| == 1
    requires 0 <= k < 32
    ensures var t := FindSessionType(st, typeId).value;
            var d := t.durationMinutes * MsPerMinute;
            var x := WindowStart(date) + k * SlotStepMs;
            var b := st.bookings[0];
      x in GetAvailableSlots(st, typeId, date) <==>
        !(BookedOn(st.sessionTypes, b, t.owner, DayOf(date)) && Overlaps(x, x + d, b.start, b.start + d))
  {
    AvailableSlotMeaning(st, typeId, date, k);
  }

  /** One approved 30-minute booking at 10:00. */
  function Approved10(): Store
  {
    StoreOf([Intro], [], [], [Invitee(1, 1, Clock(10, 0), Approved)])
  }

  /** On that day the `k`-th candidate is offered iff its half hour misses
      10:00-10:30. */
  lemma Approved10Slot(k: int)
    requires 0 <= k < 32
    ensures var x := Clock(9, 0) + k * SlotStepMs;
      x in GetAvailableSlots(Approved10(), 1, Clock(12, 0)) <==> !Overlaps(x, x + 30 * MsPerMinute, Clock(10, 0), Clock(10, 30))
  {
    var st := Approved10();
    DayOfClock(12, 0);
    DayOfClock(10, 0);
    assert FindSessionType(st, 1) == Some(Intro) by {
      assert st.sessionTypes[0].id == 1;
    }
    assert BookedOn(st.sessionTypes, st.bookings[0], Provider, Day) by {
      assert st.sessionTypes[0].id == 1 && st.sessionTypes[0].owner == Provider;
    }
    SlotWithOneBooking(st, 1, Clock(12, 0), k);
  }

  /** A 30-minute booking at 10:00 takes away the 09:45 and 10:00 slots of
      its day; 10:30 stays offered. */
  lemma ScenarioA()
    ensures var slots := GetAvailableSlots(Approved10(), 1, Clock(12, 0));
      Clock(10, 0) !in slots && Clock(9, 45) !in slots && Clock(10, 30) in slots
  {
    Approved10Slot(4);
    Approved10Slot(3);
    Approved10Slot(6);
  }

  /** On an empty day a request for 14:00 is created, pending. */
  lemma ScenarioB()
    ensures var r := PostBooking(StoreOf([Intro], [], [], []), "intro", Request(Clock(14, 0)), Clock(8, 0));
      && r.result.Ok? && r.result.code == 201
      && r.result.value.status == Pending && r.result.value.start == Clock(14, 0)
      && r.store.bookings == [r.result.value]
  {
    var st := StoreOf([Intro], [], [], []);
    assert st.sessionTypes[0].link == "intro";
  }

  /** Approving a pending 14:00 booking with a clear calendar sets it
      approved and writes one event 14:00-14:30 on the only calendar. */
  lemma ScenarioD()
    ensures var st := StoreOf([Intro], [Calendar(3, Provider, "Work", "", 0)], [],
                              [Invitee(1, 1, Clock(14, 0), Pending)]);
      var r := ApproveBooking(st, Provider, Num(1));
      && r.result.Ok? && r.result.value.status == Approved
      && r.store.bookings[0].status == Approved
      && |r.store.events| == 1
      && r.store.events[0].calendarId == 3
      && r.store.events[0].start == Clock(14, 0) && r.store.events[0].end == Clock(14, 30)
  {
    var st := StoreOf([Intro], [Calendar(3, Provider, "Work", "", 0)], [],
                      [Invitee(1, 1, Clock(14, 0), Pending)]);
    assert FindByUserId(st, Provider) != [] by {
      FirstCalendarExists(st, Provider);
      assert st.calendars[0].owner == Provider;
    }
    FirstCalendarIsEarliest(st, Provider);
  }

  /** A pending 14:00 booking and an event 14:15-15:00 on the provider's
      only calendar. */
  function Clashing(): Store
  {
    StoreOf([Intro], [Calendar(3, Provider, "Work", "", 0)],
            [CalendarEvent(5, 3, None, "Dentist", Clock(14, 15), Clock(15, 0), "")],
            [Invitee(1, 1, Clock(14, 0), Pending)])
  }

  /** That event blocks approval of the 14:00 booking: 409, and the booking
      stays pending with no event written. */
  lemma ScenarioE()
    ensures var r := ApproveBooking(Clashing(), Provider, Num(1));
      && r.result == Err(TimeConflict) && r.result.Status() == 409
      && r.store.bookings[0].status == Pending && r.store.events == Clashing().events
  {
    var st := Clashing();
    var b := st.bookings[0];
    assert FindBooking(st, 1) == Some(b) by {
      assert st.bookings[0].id == 1;
    }
    assert FindById(st, 1, Provider) == Some(Intro) by {
      assert IsTypeOf(st.sessionTypes[0], 1, Provider);
    }
    assert CheckTimeConflict(st, Provider, BookedSpan(b, Intro).start, BookedSpan(b, Intro).end, None) by {
      assert st.calendars[0].id == 3 && st.calendars[0].owner == Provider;
      assert OnUserCalendar(st, Provider, st.events[0]);
    }
    ApproveOfOwned(st, Provider, 1, b, Intro);
  }

  /** Two types of one provider, 60 and 30 minutes, and a pending booking
      of the long one at 10:00. */
  function MixedStore(): Store
  {
    StoreOf([SessionType(1, Provider, "Long", 60, "long"), SessionType(2, Provider, "Short", 30, "short")],
            [], [], [Invitee(1, 1, Clock(10, 0), Pending)])
  }

  lemma ShortSlotOffered()
    ensures Clock(10, 30) in GetAvailableSlots(MixedStore(), 2, Clock(12, 0))
  {
    var st := MixedStore();
    DayOfClock(12, 0);
    assert FindSessionType(st, 2) == Some(st.sessionTypes[1]) by {
      assert st.sessionTypes[0].id != 2 && st.sessionTypes[1].id == 2;
    }
    SlotWithOneBooking(st, 2, Clock(12, 0), 6);
  }

  lemma ShortSlotRefused()
    ensures PostBooking(MixedStore(), "short", Request(Clock(10, 30)), Clock(8, 0)).result == Err(TimeConflict)
  {
    var st := MixedStore();
    assert FindByLink(st, "short") == Some(st.sessionTypes[1]) by {
      assert st.sessionTypes[0].link != "short" && st.sessionTypes[1].link == "short";
    }
    assert FindSessionType(st, 2) == Some(st.sessionTypes[1]) by {
      assert st.sessionTypes[0].id != 2 && st.sessionTypes[1].id == 2;
    }
    assert BookingHit(Provider, Clock(10, 30), Clock(11, 0), st.bookings[0], st.sessionTypes[0]);
  }

  /** The slot filter measures existing bookings with the requested type's
      duration, the create gate with each booking's own. A 60-minute
      booking at 10:00 leaves 10:30 offered for a 30-minute type of the same
      provider, and booking that offered slot is refused with 409. */
  lemma OfferedSlotRefused()
    ensures var st := MixedStore();
      && Clock(10, 30) in GetAvailableSlots(st, 2, Clock(12, 0))
      && PostBooking(st, "short", Request(Clock(10, 30)), Clock(8, 0)).result == Err(TimeConflict)
  {
    ShortSlotOffered();
    ShortSlotRefused();
  }

  /** The stores of the revival scenario: booking 1 pending, then rejected,
      then joined by booking 10 for the same slot. */
  function Pending10(): Store
  {
    StoreOf([Intro], [], [], [Invitee(1, 1, Clock(10, 0), Pending)])
  }

  function Rejected10(): Store
  {
    StoreOf([Intro], [], [], [Invitee(1, 1, Clock(10, 0), Rejected)])
  }

  function Rebooking(): Booking
  {
    Booking(10, 1, "Ann", "Lee", "", "555-0100", Clock(10, 0), Pending)
  }

  function Rebooked10(): Store
  {
    Rejected10().(bookings := [Invitee(1, 1, Clock(10, 0), Rejected), Rebooking()], nextBookingId := 11)
  }

  lemma ConflictStep()
    ensures PostBooking(Pending10(), "intro", Request(Clock(10, 0)), Clock(8, 0)).result == Err(TimeConflict)
  {
    var st := Pending10();
    assert st.sessionTypes[0].link == "intro" && st.sessionTypes[0].id == 1;
    assert BookingHit(Provider, Clock(10, 0), Clock(10, 30), st.bookings[0], st.sessionTypes[0]);
  }

  lemma RejectStep()
    ensures var r := RejectBooking(Pending10(), Provider, Num(1));
      r.result.Ok? && r.store == Rejected10()
  {
    var st := Pending10();
    assert st.bookings[0].id == 1 && IsTypeOf(st.sessionTypes[0], 1, Provider);
    var r := RejectBooking(st, Provider, Num(1));
    assert r.store.bookings == [Invitee(1, 1, Clock(10, 0), Rejected)];
  }

  lemma RebookStep()
    ensures var r := PostBooking(Rejected10(), "intro", Request(Clock(10, 0)), Clock(8, 0));
      r.result == Ok(201, Rebooking()) && r.store == Rebooked10()
  {
    var st := Rejected10();
    assert st.sessionTypes[0].link == "intro" && st.sessionTypes[0].id == 1;
    assert !CheckBookingConflict(st, 1, Clock(10, 0), 30);
  }

  /** A pending 10:00 booking blocks a second request for 10:00; once it is
      rejected, the same request is created. */
  lemma ScenarioF()
    ensures var rejected := RejectBooking(Pending10(), Provider, Num(1));
      && PostBooking(Pending10(), "intro", Request(Clock(10, 0)), Clock(8, 0)).result == Err(TimeConflict)
      && rejected.result.Ok? && rejected.store.bookings[0].status == Rejected
      && PostBooking(rejected.store, "intro", Request(Clock(10, 0)), Clock(8, 0)).result.Ok?
  {
    ConflictStep();
    RejectStep();
    RebookStep();
  }

  lemma ApproveStep()
    ensures var r := ApproveBooking(Rebooked10(), Provider, Num(1));
      && r.result.Ok?
      && r.store.sessionTypes == [Intro]
      && r.store.bookings == [Invitee(1, 1, Clock(10, 0), Approved), Rebooking()]
  {
    var st := Rebooked10();
    assert st.bookings[0].id == 1 && IsTypeOf(st.sessionTypes[0], 1, Provider);
    assert FindByUserId(st, Provider) == [];
    var r := ApproveBooking(st, Provider, Num(1));
    assert r.store.bookings[0] == Invitee(1, 1, Clock(10, 0), Approved);
    assert r.store.bookings[1] == Rebooking();
  }

  lemma RebookedIsDisjoint()
    ensures BookingsDisjoint(Rebooked10())
  {
    var st := Rebooked10();
    assert !Live(st.bookings[0].status);
  }

  /** Booking 1 approved next to booking 10 on the same slot. */
  lemma RevivedIsDoubleBooked(st: Store)
    requires st.sessionTypes == [Intro]
    requires st.bookings == [Invitee(1, 1, Clock(10, 0), Approved), Rebooking()]
    ensures !BookingsDisjoint(st)
  {
    assert FindSessionType(st, 1) == Some(Intro) by {
      assert st.sessionTypes[0].id == 1;
    }
    assert DoubleBooked(st, st.bookings[0], st.bookings[1]);
  }

  /** Approve does not check the status or other bookings, so a rejected
      booking can come back: reject booking 1, let its slot be booked again,
      then approve booking 1. Every step succeeds, the store was free of
      double bookings after the second create, and it is not afterwards. */
  lemma RejectedBookingRevived()
    ensures var rejected := RejectBooking(Pending10(), Provider, Num(1));
      var rebooked := PostBooking(rejected.store, "intro", Request(Clock(10, 0)), Clock(8, 0));
      var revived := ApproveBooking(rebooked.store, Provider, Num(1));
      && rejected.result.Ok? && rebooked.result.Ok? && revived.result.Ok?
      && BookingsDisjoint(rebooked.store)
      && !BookingsDisjoint(revived.store)
  {
    RejectStep();
    RebookStep();
    ApproveStep();
    RebookedIsDisjoint();
    RevivedIsDoubleBooked(ApproveBooking(Rebooked10(), Provider, Num(1)).store);
  }
}

=== FILE: session_routes.dfy ===
/** The session-type routes (backend/routes/sessions.ts): get, create,
    update and delete, each an ordered chain of early returns in front of at
    most one write. */
module SessionRoutes {
  import opened Types
  import opened Http
  import opened SessionTypeModel
  import opened StoreInvariant

  /** The JSON body of a create or update. A missing `duration_minutes`
      arrives as 0, which JavaScript treats as falsy like the missing field. */
  datatype SessionRequest = SessionRequest(name: string, durationMinutes: int)

  /** The body guards shared by create and update, in source order. */
  function BodyChecks(req: SessionRequest): (checks: seq<Check>)
  {
    [ Check(req.name != [] && req.durationMinutes != 0, MissingField),
      Check(!(req.durationMinutes <= 0 || req.durationMinutes > MaxSessionMinutes), DurationOutOfRange) ]
  }

  /** A body passes both guards exactly when it names the type and asks for
      1 to 480 minutes. */
  lemma BodyChecksMeaning(req: SessionRequest)
    ensures FirstFailure(BodyChecks(req)).None? <==> req.name != [] && 1 <= req.durationMinutes <= MaxSessionMinutes
  {
    assert BodyChecks(req)[0].passes && BodyChecks(req)[1].passes ==> FirstFailure(BodyChecks(req)).None?;
  }

  /** A zero duration is reported as a missing field, never as out of range. */
  lemma {:induction false} ZeroDurationIsMissing(st: Store, user: int, name: string, link: string)
    ensures CreateSessionType(st, user, SessionRequest(name, 0), link).result == Err(MissingField)
    ensures UpdateSessionType(st, user, Num(0), SessionRequest(name, 0)).result == Err(MissingField)
  {
    assert !BodyChecks(SessionRequest(name, 0))[0].passes;
  }

  /** `POST /session-types`. The generated public link is a parameter. */
  function CreateSessionType(st: Store, user: int, req: SessionRequest, link: string): (r: Reply<SessionType>)
    ensures FollowsChain(r.result, BodyChecks(req))
    ensures r.result.Err? ==> r.store == st
    ensures r.result.Ok? ==>
      && r.result.code == 201
      && r.result.value.owner == user && r.result.value.name == req.name
      && r.result.value.durationMinutes == req.durationMinutes
      && 1 <= r.result.value.durationMinutes <= MaxSessionMinutes
      && r.result.value.link == link && r.result.value.id == st.nextSessionTypeId
      && r.store == st.(sessionTypes := st.sessionTypes + [r.result.value],
                        nextSessionTypeId := st.nextSessionTypeId + 1)
    ensures Valid(st) ==> Valid(r.store)
  {
    BodyChecksMeaning(req);
    if req.name == [] || req.durationMinutes == 0 then Reply(Err(MissingField), st)
    else if req.durationMinutes <= 0 || req.durationMinutes > MaxSessionMinutes then Reply(Err(DurationOutOfRange), st)
    else
      var w := Create(st, user, req.name, req.durationMinutes, link);
      assert Valid(st) ==> Valid(w.store) by {
        if Valid(st) { NewTypeKeepsValid(st, user, req.name, req.durationMinutes, link); }
      }
      Reply(Ok(201, w.row.value), w.store)
  }

  /** The path guards of get, update and delete: the id must be a number,
      and then name a type of the caller. */
  function IdChecks(st: Store, user: int, id: NumParam): (checks: seq<Check>)
  {
    [ Check(id.Num?, InvalidId),
      Check(id.Num? && FindById(st, id.n, user).Some?, NotFound) ]
  }

  /** `GET /session-types/:id`: the caller's own type, and nothing changes. */
  function GetSessionType(st: Store, user: int, id: NumParam): (r: Reply<SessionType>)
    ensures FollowsChain(r.result, IdChecks(st, user, id))
    ensures r.store == st
    ensures r.result.Ok? ==>
      && r.result.code == 200 && id.Num?
      && r.result.value in st.sessionTypes
      && r.result.value.id == id.n && r.result.value.owner == user
  {
    match id
    case NaN => Reply(Err(InvalidId), st)
    case Num(n) =>
      match FindById(st, n, user)
      case None =>
        assert IdChecks(st, user, id)[0].passes && !IdChecks(st, user, id)[1].passes;
        Reply(Err(NotFound), st)
      case Some(t) => Reply(Ok(200, t), st)
  }

  /** Update checks the id first, then the body, and only then ownership. */
  function UpdateChecks(st: Store, user: int, id: NumParam, req: SessionRequest): (checks: seq<Check>)
  {
    [IdChecks(st, user, id)[0], BodyChecks(req)[0], BodyChecks(req)[1], IdChecks(st, user, id)[1]]
  }

  /** `PUT /session-types/:id`: the id guard, then the body guards, then the
      ownership-scoped update. */
  function UpdateSessionType(st: Store, user: int, id: NumParam, req: SessionRequest): (r: Reply<SessionType>)
    ensures FollowsChain(r.result, UpdateChecks(st, user, id, req))
    ensures r.result.Err? ==> r.store == st
    ensures r.result.Ok? ==>
      && r.result.code == 200 && id.Num?
      && r.result.value.id == id.n && r.result.value.owner == user
      && r.result.value.name == req.name && r.result.value.durationMinutes == req.durationMinutes
      && 1 <= req.durationMinutes <= MaxSessionMinutes
      && |r.store.sessionTypes| == |st.sessionTypes|
      && (forall j :: 0 <= j < |st.sessionTypes| ==>
            r.store.sessionTypes[j] == if IsTypeOf(st.sessionTypes[j], id.n, user)
                                       then st.sessionTypes[j].(name := req.name, durationMinutes := req.durationMinutes)
                                       else st.sessionTypes[j])
      && r.store == st.(sessionTypes := r.store.sessionTypes)
    ensures Valid(st) ==> Valid(r.store)
  {
    BodyChecksMeaning(req);
    var checks := UpdateChecks(st, user, id, req);
    match id
    case NaN =>
      assert !checks[0].passes;
      Reply(Err(InvalidId), st)
    case Num(n) =>
      assert checks[1] == BodyChecks(req)[0] && checks[2] == BodyChecks(req)[1];
      if req.name == [] || req.durationMinutes == 0 then Reply(Err(MissingField), st)
      else if req.durationMinutes <= 0 || req.durationMinutes > MaxSessionMinutes then Reply(Err(DurationOutOfRange), st)
      else
        var w := Update(st, n, user, req.name, req.durationMinutes);
        assert Valid(st) ==> Valid(w.store) by {
          if Valid(st) { RetypedKeepsValid(st, n, user, req.name, req.durationMinutes); }
        }
        if w.row.None? then
          assert checks[0].passes && checks[1].passes && checks[2].passes && !checks[3].passes;
          Reply(Err(NotFound), st)
        else Reply(Ok(200, w.row.value), w.store)
  }

  /** `DELETE /session-types/:id`: removes the caller's type. */
  function DeleteSessionType(st: Store, user: int, id: NumParam): (r: Reply<bool>)
    ensures FollowsChain(r.result, IdChecks(st, user, id))
    ensures r.result.Err? ==> r.store == st
    ensures r.result.Ok? ==>
      && r.result.code == 200 && id.Num?
      && (forall t :: t in r.store.sessionTypes <==> t in st.sessionTypes && !IsTypeOf(t, id.n, user))
      && (forall t :: multiset(r.store.sessionTypes)[t] ==
                       if IsTypeOf(t, id.n, user) then 0 else multiset(st.sessionTypes)[t])
      && r.store == st.(sessionTypes := r.store.sessionTypes)
    ensures Valid(st) ==> Valid(r.store)
  {
    match id
    case NaN => Reply(Err(InvalidId), st)
    case Num(n) =>
      var (deleted, st') := Delete(st, n, user);
      if !deleted then
        assert IdChecks(st, user, id)[0].passes && !IdChecks(st, user, id)[1].passes;
        Reply(Err(NotFound), st)
      else
        assert Valid(st) ==> Valid(st') by { if Valid(st) { DeletedTypeKeepsValid(st, n, user); } }
        Reply(Ok(200, true), st')
  }
}

=== FILE: session_type_model.dfy ===
/** The session-type table (backend/models/SessionType.ts), reduced to the
    lookups and writes the routes use. */
module SessionTypeModel {
  import opened Types
  import opened Rows

  predicate IsTypeOf(t: SessionType, id: int, owner: int)
  {
    t.id == id && t.owner == owner
  }

  /** `findById(id, userId)`: the type only if `owner` owns it. */
  function FindById(st: Store, id: int, owner: int): (r: Option<SessionType>)
    ensures r.Some? ==> r.value in st.sessionTypes && r.value.id == id && r.value.owner == owner
    ensures r.None? <==> forall j :: 0 <= j < |st.sessionTypes| ==> !IsTypeOf(st.sessionTypes[j], id, owner)
  {
    First(st.sessionTypes, (t: SessionType) => IsTypeOf(t, id, owner))
  }

  /** `findByUniqueLink(link)`: not scoped to any owner; the first row
      carrying the link. */
  function FindByLink(st: Store, link: string): (r: Option<SessionType>)
    ensures r.Some? ==> r.value in st.sessionTypes && r.value.link == link
    ensures r.None? <==> forall j :: 0 <= j < |st.sessionTypes| ==> st.sessionTypes[j].link != link
    ensures r.Some? ==> exists j :: 0 <= j < |st.sessionTypes| && st.sessionTypes[j] == r.value
                                    && forall m :: 0 <= m < j ==> st.sessionTypes[m].link != link
  {
    First(st.sessionTypes, (t: SessionType) => t.link == link)
  }

  /** `create`: appends one type. Its public link is generated by the store
      and is a parameter here. */
  function Create(st: Store, owner: int, name: string, minutes: int, link: string): (w: Written<SessionType>)
    ensures w.row.Some? && w.row.value.owner == owner && w.row.value.durationMinutes == minutes
    ensures w.row.value.id == st.nextSessionTypeId && w.row.value.name == name && w.row.value.link == link
    ensures w.store == st.(sessionTypes := st.sessionTypes + [w.row.value],
                           nextSessionTypeId := st.nextSessionTypeId + 1)
  {
    var t := SessionType(st.nextSessionTypeId, owner, name, minutes, link);
    Written(Some(t), st.(sessionTypes := st.sessionTypes + [t], nextSessionTypeId := st.nextSessionTypeId + 1))
  }

  /** `update`: sets name and duration of the owner's type with this id;
      a missing or foreign type answers null and changes nothing. */
  function Update(st: Store, id: int, owner: int, name: string, minutes: int): (w: Written<SessionType>)
    ensures w.row.None? <==> FindById(st, id, owner).None?
    ensures w.row.None? ==> w.store == st
    ensures w.row.Some? ==> w.row.value.id == id && w.row.value.owner == owner
                            && w.row.value.name == name && w.row.value.durationMinutes == minutes
    ensures w.store == st.(sessionTypes := w.store.sessionTypes)
    ensures |w.store.sessionTypes| == |st.sessionTypes|
    ensures forall j :: 0 <= j < |st.sessionTypes| ==>
      w.store.sessionTypes[j] == if IsTypeOf(st.sessionTypes[j], id, owner)
                                 then st.sessionTypes[j].(name := name, durationMinutes := minutes)
                                 else st.sessionTypes[j]
  {
    var p := (t: SessionType) => IsTypeOf(t, id, owner);
    var f := (t: SessionType) => t.(name := name, durationMinutes := minutes);
    match FindById(st, id, owner)
    case None => Written(None, st)
    case Some(t) => Written(Some(f(t)), st.(sessionTypes := UpdateWhere(st.sessionTypes, p, f)))
  }

  /** `delete`: removes the owner's type with this id and reports whether a
      row went; a missing or foreign type changes nothing. */
  function Delete(st: Store, id: int, owner: int): (r: (bool, Store))
    ensures r.0 <==> FindById(st, id, owner).Some?
    ensures !r.0 ==> r.1 == st
    ensures r.1 == st.(sessionTypes := r.1.sessionTypes)
    ensures forall t :: t in r.1.sessionTypes <==> t in st.sessionTypes && !IsTypeOf(t, id, owner)
    ensures forall t :: multiset(r.1.sessionTypes)[t] == if IsTypeOf(t, id, owner) then 0 else multiset(st.sessionTypes)[t]
  {
    var p := (t: SessionType) => !IsTypeOf(t, id, owner);
    if FindById(st, id, owner).None? then (false, st)
    else
      FilterCounts(st.sessionTypes, p);
      (true, st.(sessionTypes := Filter(st.sessionTypes, p)))
  }
}

=== FILE: slots.dfy ===
/** Slot generation and availability filtering, the loop of
    `BookingModel.getAvailableSlots` (backend/models/Booking.ts:132-171),
    on already-fetched data: the same-day booking starts and the same-day
    events of the provider. */
module Slots {
  import opened Types
  import opened Overlap

  /** Candidates advance by 15 minutes. */
  const SlotStepMs: int := 15 * MsPerMinute

  /** The working window is 09:00 to 17:00 of the requested day. */
  const WindowOpenMs: int := 9 * 60 * MsPerMinute
  const WindowCloseMs: int := 17 * 60 * MsPerMinute

  /** A fetched event interval `[start, end)`. */
  datatype Span = Span(start: int, end: int)

  predicate Ascending(s: seq<int>)
  {
    forall i, j :: 0 <= i < j < |s| ==> s[i] < s[j]
  }

  /** The start instants `t = from, from + 15 min, ...` while `t < until`.
      The slot's end is not compared with `until`. */
  function Candidates(from: int, until: int): (ts: seq<int>)
    ensures forall k :: 0 <= k < |ts| ==> ts[k] == from + k * SlotStepMs
    ensures from < until ==> (|ts| - 1) * SlotStepMs < until - from <= |ts| * SlotStepMs
    ensures from >= until ==> ts == []
    decreases until - from
  {
    if from < until then [from] + Candidates(from + SlotStepMs, until) else []
  }

  /** A candidate start `t` for a session of `d` ms is free when the source's
      test hits none of the fetched bookings and none of the fetched events.
      A booking's end is taken as its start plus the REQUESTED duration `d`,
      not its own session type's duration. */
  predicate SlotFree(t: int, d: int, starts: seq<int>, events: seq<Span>)
  {
    && (forall i :: 0 <= i < |starts| ==> !ThreeClause(t, t + d, starts[i], starts[i] + d))
    && (forall j :: 0 <= j < |events| ==> !ThreeClause(t, t + d, events[j].start, events[j].end))
  }

  /** The free candidates, in candidate order. */
  function FreeSlots(cands: seq<int>, d: int, starts: seq<int>, events: seq<Span>): (r: seq<int>)
    ensures forall t :: t in r <==> t in cands && SlotFree(t, d, starts, events)
    ensures |r| <= |cands|
    ensures Ascending(cands) ==> Ascending(r)
  {
    if cands == [] then []
    else
      var rest := FreeSlots(cands[1..], d, starts, events);
      if SlotFree(cands[0], d, starts, events) then
        AscendingHeadBelowTail(cands, rest);
        [cands[0]] + rest
      else rest
  }

  /** In an ascending sequence the head is below everything drawn from the
      tail. */
  lemma AscendingHeadBelowTail(cands: seq<int>, rest: seq<int>)
    requires cands != []
    requires forall t :: t in rest ==> t in cands[1..]
    ensures Ascending(cands) && Ascending(rest) ==> Ascending([cands[0]] + rest)
  {
    if Ascending(cands) && Ascending(rest) {
      forall k | 0 <= k < |rest|
        ensures cands[0] < rest[k]
      {
        assert rest[k] in rest;
        var m :| 0 <= m < |cands[1..]| && cands[1..][m] == rest[k];
        assert cands[m + 1] == rest[k];
      }
    }
  }

  /** The generator and the filter fused, as the source's loop runs them:
      the free candidates from `t` on. */
  function SlotsFrom(t: int, until: int, d: int, starts: seq<int>, events: seq<Span>): seq<int>
    decreases until - t
  {
    if t < until then
      (if SlotFree(t, d, starts, events) then [t] else []) + SlotsFrom(t + SlotStepMs, until, d, starts, events)
    else []
  }

  lemma {:induction false} SlotsFromIsFreeCandidates(t: int, until: int, d: int, starts: seq<int>, events: seq<Span>)
    ensures SlotsFrom(t, until, d, starts, events) == FreeSlots(Candidates(t, until), d, starts, events)
    decreases until - t
  {
    if t < until {
      SlotsFromIsFreeCandidates(t + SlotStepMs, until, d, starts, events);
      var cands := Candidates(t, until);
      assert cands[0] == t;
      assert cands[1..] == Candidates(t + SlotStepMs, until);
    }
  }

  /** The inner loop over the fetched bookings: true when none is hit. */
  method BookingsAllow(slotStart: int, slotEnd: int, d: int, starts: seq<int>)
    returns (isAvailable: bool)
    ensures isAvailable <==> forall k :: 0 <= k < |starts| ==> !ThreeClause(slotStart, slotEnd, starts[k], starts[k] + d)
  {
    isAvailable := true;
    var i := 0;
    while i < |starts|
      invariant 0 <= i <= |starts|
      invariant isAvailable
      invariant forall k :: 0 <= k < i ==> !ThreeClause(slotStart, slotEnd, starts[k], starts[k] + d)
    {
      var bookingEnd := starts[i] + d;
      if ThreeClause(slotStart, slotEnd, starts[i], bookingEnd) {
        isAvailable := false;
        break;
      }
      i := i + 1;
    }
  }

  /** The inner loop over the fetched events: true when none is hit. */
  method EventsAllow(slotStart: int, slotEnd: int, events: seq<Span>)
    returns (isAvailable: bool)
    ensures isAvailable <==> forall k :: 0 <= k < |events| ==> !ThreeClause(slotStart, slotEnd, events[k].start, events[k].end)
  {
    isAvailable := true;
    var j := 0;
    while j < |events|
      invariant 0 <= j <= |events|
      invariant isAvailable
      invariant forall k :: 0 <= k < j ==> !ThreeClause(slotStart, slotEnd, events[k].start, events[k].end)
    {
      if ThreeClause(slotStart, slotEnd, events[j].start, events[j].end) {
        isAvailable := false;
        break;
      }
      j := j + 1;
    }
  }

  /** The outer loop of the source: walk the candidates, keep the free ones.
      The event loop runs only when the booking loop found nothing. */
  method AvailableSlots(from: int, until: int, d: int, starts: seq<int>, events: seq<Span>)
    returns (slots: seq<int>)
    ensures slots == FreeSlots(Candidates(from, until), d, starts, events)
  {
    slots := [];
    var t := from;
    while t < until
      invariant SlotsFrom(from, until, d, starts, events) == slots + SlotsFrom(t, until, d, starts, events)
      decreases until - t
    {
      var slotStart := t;
      var slotEnd := t + d;
      var isAvailable := BookingsAllow(slotStart, slotEnd, d, starts);
      if isAvailable {
        isAvailable := EventsAllow(slotStart, slotEnd, events);
      }
      ghost var rest := SlotsFrom(t + SlotStepMs, until, d, starts, events);
      if isAvailable {
        assert slots + ([slotStart] + rest) == (slots + [slotStart]) + rest;
        slots := slots + [slotStart];
      } else {
        assert [] + rest == rest;
      }
      t := t + SlotStepMs;
    }
    SlotsFromIsFreeCandidates(from, until, d, starts, events);
  }

  /** The working day has exactly 32 candidates, 09:00 through 16:45, 15
      minutes apart, whatever the session's duration. */
  lemma WorkingDayCandidates(dayStart: int)
    ensures var ts := Candidates(dayStart + WindowOpenMs, dayStart + WindowCloseMs);
      && |ts| == 32
      && ts[0] == dayStart + 9 * 60 * MsPerMinute
      && ts[31] == dayStart + (16 * 60 + 45) * MsPerMinute
      && Ascending(ts)
  {
    var ts := Candidates(dayStart + WindowOpenMs, dayStart + WindowCloseMs);
    CandidatesCount(dayStart + WindowOpenMs, dayStart + WindowCloseMs, 32);
    CandidatesAscending(dayStart + WindowOpenMs, dayStart + WindowCloseMs);
    assert ts[31] == dayStart + WindowOpenMs + 31 * SlotStepMs;
  }

  /** A window as long as the working day: `open` is 09:00 and `close`
      17:00 of one day. */
  predicate WorkingWindow(open: int, close: int)
  {
    close - open == WindowCloseMs - WindowOpenMs
  }

  /** The `k`-th step from 09:00, for `k` below 32, is a candidate. */
  lemma WindowCandidate(open: int, close: int, k: int)
    requires WorkingWindow(open, close) && 0 <= k < 32
    ensures open + k * SlotStepMs in Candidates(open, close)
  {
    var ts := Candidates(open, close);
    CandidatesCount(open, close, 32);
    assert ts[k] == open + k * SlotStepMs;
  }

  /** Candidates are strictly increasing. */
  lemma CandidatesAscending(from: int, until: int)
    ensures Ascending(Candidates(from, until))
  {
    var ts := Candidates(from, until);
    forall i, j | 0 <= i < j < |ts|
      ensures ts[i] < ts[j]
    {
      assert ts[i] == from + i * SlotStepMs && ts[j] == from + j * SlotStepMs;
    }
  }

  /** A window of exactly `n` steps holds exactly `n` candidates. */
  lemma {:induction false} CandidatesCount(from: int, until: int, n: nat)
    requires until - from == n * SlotStepMs
    ensures |Candidates(from, until)| == n
    decreases n
  {
    if n > 0 {
      CandidatesCount(from + SlotStepMs, until, n - 1);
    }
  }

  /** The free slots of a working day: at most 32, ascending, each a
      15-minute step from 09:00. */
  lemma FreeWorkingSlots(open: int, close: int, d: int, starts: seq<int>, events: seq<Span>)
    requires WorkingWindow(open, close)
    ensures var r := FreeSlots(Candidates(open, close), d, starts, events);
      && |r| <= 32 && Ascending(r)
      && forall x :: x in r ==> exists k :: 0 <= k < 32 && x == open + k * SlotStepMs
  {
    var cands := Candidates(open, close);
    CandidatesCount(open, close, 32);
    CandidatesAscending(open, close);
    var r := FreeSlots(cands, d, starts, events);
    forall x | x in r
      ensures exists k :: 0 <= k < 32 && x == open + k * SlotStepMs
    {
      var k :| 0 <= k < |cands| && cands[k] == x;
    }
  }

  /** The last slot is offered even when the session runs past 17:00. */
  lemma LastSlotMayOverrun(dayStart: int, minutes: int)
    requires minutes > 15
    ensures var ts := Candidates(dayStart + WindowOpenMs, dayStart + WindowCloseMs);
      ts[31] + minutes * MsPerMinute > dayStart + WindowCloseMs
  {
    WorkingDayCandidates(dayStart);
  }

  /** For a non-empty session and non-empty events, a candidate is kept iff
      `[t, t + d)` overlaps none of `[s, s + d)` for the fetched booking
      starts `s` and none of the fetched events, in the half-open sense. */
  lemma SlotFreeIffNoOverlap(t: int, d: int, starts: seq<int>, events: seq<Span>)
    requires d > 0
    requires forall j :: 0 <= j < |events| ==> events[j].start < events[j].end
    ensures SlotFree(t, d, starts, events) <==>
      && (forall i :: 0 <= i < |starts| ==> !Overlaps(t, t + d, starts[i], starts[i] + d))
      && (forall j :: 0 <= j < |events| ==> !Overlaps(t, t + d, events[j].start, events[j].end))
  {
  }

  /** `[x, x + d)` overlaps, half-open, none of the booking spans
      `[s, s + d)`. */
  predicate ClearOfStarts(x: int, d: int, starts: seq<int>)
  {
    forall i :: 0 <= i < |starts| ==> !Overlaps(x, x + d, starts[i], starts[i] + d)
  }

  /** `[x, x + d)` overlaps, half-open, none of the event spans. */
  predicate ClearOfSpans(x: int, d: int, events: seq<Span>)
  {
    forall j :: 0 <= j < |events| ==> !Overlaps(x, x + d, events[j].start, events[j].end)
  }

  /** A candidate is among the free slots iff it is clear of the booking
      spans and of the non-empty event spans. */
  lemma FreeSlotMembership(cands: seq<int>, d: int, starts: seq<int>, events: seq<Span>, x: int)
    requires x in cands && d > 0
    requires forall j :: 0 <= j < |events| ==> events[j].start < events[j].end
    ensures x in FreeSlots(cands, d, starts, events) <==> ClearOfStarts(x, d, starts) && ClearOfSpans(x, d, events)
  {
    SlotFreeIffNoOverlap(x, d, starts, events);
  }

  /** The `k`-th step of a working day is a free slot iff it is clear of
      the booking spans and of the non-empty event spans. */
  lemma WorkingSlotMembership(open: int, close: int, d: int, starts: seq<int>, events: seq<Span>, k: int)
    requires WorkingWindow(open, close) && 0 <= k < 32 && d > 0
    requires forall j :: 0 <= j < |events| ==> events[j].start < events[j].end
    ensures open + k * SlotStepMs in FreeSlots(Candidates(open, close), d, starts, events) <==>
      ClearOfStarts(open + k * SlotStepMs, d, starts) && ClearOfSpans(open + k * SlotStepMs, d, events)
  {
    WindowCandidate(open, close, k);
    FreeSlotMembership(Candidates(open, close), d, starts, events, open + k * SlotStepMs);
  }

  /** More bookings or more events can only remove slots. */
  lemma {:induction false} BusierDayFewerSlots(
    cands: seq<int>, d: int, starts: seq<int>, events: seq<Span>,
    starts': seq<int>, events': seq<Span>)
    requires forall x :: x in starts ==> x in starts'
    requires forall ev :: ev in events ==> ev in events'
    ensures forall t :: t in FreeSlots(cands, d, starts', events') ==> t in FreeSlots(cands, d, starts, events)
  {
    forall t | t in FreeSlots(cands, d, starts', events')
      ensures SlotFree(t, d, starts, events)
    {
      forall i | 0 <= i < |starts|
        ensures !ThreeClause(t, t + d, starts[i], starts[i] + d)
      {
        assert starts[i] in starts;
        var k :| 0 <= k < |starts'| && starts'[k] == starts[i];
      }
      forall j | 0 <= j < |events|
        ensures !ThreeClause(t, t + d, events[j].start, events[j].end)
      {
        assert events[j] in events;
        var k :| 0 <= k < |events'| && events'[k] == events[j];
      }
    }
  }
}

=== FILE: types.dfy ===
/** Rows of the scheduling store (backend/types/database.ts) and the store
    itself, as immutable values. Instants are milliseconds since the epoch,
    durations are whole minutes. */
module Types {

  datatype Option<+T> = None | Some(value: T)

  /** Milliseconds in one minute: every duration is turned into an interval
      end as `start + minutes * 60000`. */
  const MsPerMinute: int := 60000

  /** Milliseconds in one day. */
  const MsPerDay: int := 24 * 60 * MsPerMinute

  /** The longest session a provider may offer, in minutes. */
  const MaxSessionMinutes: int := 480

  datatype BookingStatus = Pending | Approved | Rejected

  /** A bookable meeting template owned by one provider. */
  datatype SessionType = SessionType(
    id: int,
    owner: int,
    name: string,
    durationMinutes: int,
    link: string)

  datatype Calendar = Calendar(
    id: int,
    owner: int,
    name: string,
    description: string,
    createdAt: int)

  /** A provider-owned time block `[start, end)`. `bookingId` is the optional
      back-reference to a booking; nothing in this core ever sets it. */
  datatype CalendarEvent = CalendarEvent(
    id: int,
    calendarId: int,
    bookingId: Option<int>,
    title: string,
    start: int,
    end: int,
    description: string)

  /** An invitee's request for a slot. The empty string stands for an absent
      email or phone, exactly as JavaScript treats both as falsy. */
  datatype Booking = Booking(
    id: int,
    sessionTypeId: int,
    firstName: string,
    lastName: string,
    email: string,
    phone: string,
    start: int,
    status: BookingStatus)

  /** The relational store: one sequence per table plus the next value of
      each table's id sequence. */
  datatype Store = Store(
    sessionTypes: seq<SessionType>,
    calendars: seq<Calendar>,
    events: seq<CalendarEvent>,
    bookings: seq<Booking>,
    nextSessionTypeId: int,
    nextCalendarId: int,
    nextEventId: int,
    nextBookingId: int)

  /** The row a write statement returned (`RETURNING *`, or nothing) and the
      store after it. */
  datatype Written<T> = Written(row: Option<T>, store: Store)
}
